=== FILE: README.md ===
# Jelly field plugins, modelled in Dafny

A model of the field classes that the Jelly ORM for Kohana uses for slugs, file uploads and image uploads:

- **Slug field** (`Jelly_Core_Field_Slug::set`). A value is lower-cased. Every byte outside `[a-z0-9-]` becomes the separator. Runs of two or more dashes become the separator. Separator characters are trimmed from both ends.
- **File field** (`Jelly_Field_File`). `__construct` and `_check_path` turn the configured directory into a checked, writable directory with exactly one trailing slash, or throw. `save` stores a valid upload, cuts the directory off the stored name and deletes the previous file. `delete` removes the stored file. `_check_filesize` records a `file_too_big` error when PHP refused an upload for exceeding `upload_max_filesize`.
- **Image field of the Jelly core** (`Jelly_Core_Field_Image`). `__construct` completes the options and every thumbnail with the defaults. It checks the thumbnail directories. It refuses a thumbnail without a prefix whose path is empty or the original's. `_upload` plans the refactoring of the original image and one delete and one image job per thumbnail. `_refactor` calls the whitelisted image methods in configuration order, then saves once.
- **Older image field** (`Jelly_Field_Image`). `__construct` checks every thumbnail path and installs the default `Upload::type` rule. `save` stores the upload and deletes the previous image. It then walks the thumbnails: for each, it deletes that thumbnail's previous file and makes the new one with one of four fixed resize recipes.

## How the model is built

- The PHP values the fields handle are a `Value` datatype: null, bool, int, string and ordered array.
- `Php` gives the PHP semantics the code relies on: truthiness, string conversion, PHP 8 loose `==` and `<` against an integer, the array union `+`, and `$a[$k] = $v`.
- `PhpString` models `strtolower`, `trim`/`ltrim`/`rtrim` and `str_replace`. It also gives the numeric-string reading that loose comparison uses.
- Nothing touches a real filesystem or an image library. A field's save returns a plan (module `Plan`), which is a sequence of steps:
  - `Store`: the upload helper put the file at a path;
  - `Unlink`;
  - `Process`: an image job, which loads a source, applies operations in order and saves once.
- The filesystem is the set of existing paths. `Run` applies a plan to it. `Guarded` says that every unlink in a plan targets a file that exists at that moment, as the source's `file_exists` checks ensure.
- Runtime calls and inherited code become parameters:
  - `realpath`, `is_writable`, `DIRECTORY_SEPARATOR`;
  - `Upload::valid`, `Upload::save`;
  - the model's `changed`/`original`/`get`, and the value `Jelly::select` reads back;
  - the inherited `_default` and `_upload`.
- A thrown `Kohana_Exception` is an `Outcome.Result` error. So is a PHP 8 `TypeError`: `call_user_func_array` given arguments that are not an array, or `strtolower` or `realpath` given an array.

Notes on the source:

- **Underscores and slashes in slugs.** The slug class comment calls underscores and forward slashes valid slug characters. The regular expression replaces them. The model follows the code; `Slug.UnderscoreAndSlashReplaced` exhibits this.
- **Thumbnail paths in the older image field.** Its constructor assigns the checked thumbnail paths to the loop's copy of each thumbnail, so they are discarded. Only the writability check has an effect.
- **A prefix with a slash can overwrite the original.** The core constructor refuses a thumbnail without a prefix whose path is empty or the original's. It does not look inside the prefix. A thumbnail stored in the parent directory with the prefix `y/` is written over the original when the original lives in `.../y/` (`CoreImageField.SlashedPrefixOverwrites`). With a prefix free of slashes this cannot happen (`CoreImageField.ThumbnailSparesOriginal`).
- **Deletion without `retain_value_on_empty_save`.** In the older field's `save`, the previous file name is the default unless `retain_value_on_empty_save` is set and the model is loaded. Without that option, `save` never deletes an old image or thumbnail (`ImageField.WithoutRetainNothingDeleted`).

## Model

| member | source | states |
|---|---|---|
| Slug.ReplaceInvalid | classes/jelly/core/field/slug.php:35 | A separator of slug bytes gives a result of slug bytes only. A separator of at most one byte never lengthens the input. With a one-byte separator each position holds either the input byte or the separator. A string already in the alphabet is unchanged. |
| Slug.ReplaceInvalidAppend | classes/jelly/core/field/slug.php:35 | For every separator, the replacement of two joined strings is the two replacements joined: it works byte by byte. |
| Slug.ReplaceInvalidByte | classes/jelly/core/field/slug.php:35 | A byte of `[a-z0-9-]` is kept and any other byte becomes the whole separator, whatever its length. With `ReplaceInvalidAppend` this fixes the result for every input and separator. |
| Slug.CollapseDashes | classes/jelly/core/field/slug.php:38 | Every output byte comes from the input or the separator. The output never grows with a separator of at most two bytes. A leading non-dash is kept. With a separator that has no double dash, the result has no two adjacent dashes. |
| Slug.CollapseRun | classes/jelly/core/field/slug.php:38 | For every separator, a maximal run of two or more dashes becomes the separator, a single dash stays, and the scan resumes after the run. |
| Slug.CollapseNonDash | classes/jelly/core/field/slug.php:38 | A byte other than a dash is kept and the scan moves on. With `CollapseRun` this fixes the result for every input and separator. |
| Slug.CollapseDropsRepeatedDashes | classes/jelly/core/field/slug.php:38 | With the default separator, collapsing dash runs equals an independent definition: drop every dash that directly follows a dash. |
| Slug.CollapseFixed | classes/jelly/core/field/slug.php:38 | A string without a double dash passes the collapse step unchanged, whatever the separator. |
| Slug.Normalize | classes/jelly/core/field/slug.php:35-41 | A non-empty slug neither starts nor ends with a separator character. |
| Slug.Set | classes/jelly/core/field/slug.php:28-45 | When the inherited `_default` asks to return, its value passes through untouched. An array given to `strtolower` throws. Any other value gives exactly the normalisation of its string form, so the `Normalize` lemmas apply to the field. The result never starts or ends with a separator character. With a valid separator it is made of `[a-z0-9-]`, has no double dash and is a fixpoint of the normalisation. |
| Slug.SetNullIsEmpty | classes/jelly/core/field/slug.php:30-41 | A null value becomes the empty slug. |
| Slug.SetNatIsDigits | classes/jelly/core/field/slug.php:30-41 | Every non-negative integer becomes its decimal digits, when the separator holds no letter or digit. |
| Slug.SetNegativeLosesSign | classes/jelly/core/field/slug.php:30-41 | Under the default separator a negative integer loses its sign: the minus sign survives the replacement as a dash and is then trimmed. |
| Slug.SetTrueIsOne | classes/jelly/core/field/slug.php:30-41 | `true` becomes the slug `1`, under the same condition. |
| Slug.OutputGrammar | classes/jelly/core/field/slug.php:34-41 | For any input: a separator of slug bytes gives a slug of slug bytes, and a separator without a double dash gives a slug without one. |
| Slug.Idempotent | classes/jelly/core/field/slug.php:28-45 | With a valid separator, setting an already normalised slug again changes nothing. |
| Slug.DefaultSeparatorValid | classes/jelly/core/field/slug.php:20 | The default separator `-` is a valid separator, so the grammar and idempotence results apply to the field as configured by default. |
| Slug.LengthBound | classes/jelly/core/field/slug.php:35-41 | With a separator of at most one byte, the slug is never longer than the input. |
| Slug.AlphanumericLowered | classes/jelly/core/field/slug.php:35 | An input of ASCII letters and digits comes out exactly lower-cased: letters are lowered, never replaced. This holds when the separator holds no letter or digit. |
| Slug.UnderscoreAndSlashReplaced | classes/jelly/core/field/slug.php:35 | `a_b/c` becomes `a-b-c`: underscores and slashes are replaced, contrary to the class comment. |
| PhpString.Trim | classes/jelly/core/field/slug.php:41 | `trim` returns a contiguous slice of the input. Its ends are not in the character list, and every byte removed before or after the slice is in the list. |
| PhpString.Lower | classes/jelly/core/field/slug.php:35 | `strtolower` keeps the length and maps each byte by itself: ASCII `A`-`Z` become their lower-case partners and every other byte is unchanged. |
| PhpString.ReplaceAll | classes/jelly/field/file.php:48 | `str_replace` with an empty search string, or with a replacement equal to the search string, leaves the subject unchanged. A replacement no longer than the search string never lengthens the subject, and one of equal length keeps its length. |
| PhpString.ReplaceAllAbsent | classes/jelly/field/image.php:97 | A subject in which the search string does not occur comes back unchanged. |
| PhpString.ReplaceAllChar | classes/jelly/field/file.php:106 | Replacing one character by another maps each character on its own, as the backslash-to-slash rewriting of a path needs. |
| FileField.CheckPath | classes/jelly/field/file.php:104-115 | An array path throws the string-expected `TypeError`, since `str_replace` returns an array and `realpath` refuses it. A scalar path is read in its string form and throws exactly when `realpath` fails, yields a falsy path, or yields an unwritable path. Otherwise returns the resolved path in directory form: no backslash, exactly one trailing slash, and the resolved path with its trailing slashes dropped. |
| FileField.ForwardSlashes | classes/jelly/field/file.php:106-114 | Every backslash becomes `/`, every other byte is kept, and the length is kept. |
| FileField.DirectoryFormIdempotent | classes/jelly/field/file.php:114 | The trailing-slash normalisation is idempotent: normalising a checked directory again gives it back. |
| FileField.Construct | classes/jelly/field/file.php:24-28 | The field is built exactly when the path check passes, and otherwise throws the check's error: string-expected for an array path, unwritable-path for any other. Its path is the checked directory; the other properties are kept as given. |
| FileField.Save | classes/jelly/field/file.php:38-74 | A value that is not a valid upload is returned unchanged with no step. A failed `Upload::save` yields the default. A successful one stores the file and returns a string that neither starts nor ends with `/`. It unlinks the previous file exactly when old files are deleted, the previous value differs loosely from the default, and that file exists. Every unlink targets an existing file. |
| FileField.StoredName | classes/jelly/field/file.php:48-54 | The saved value neither starts nor ends with a slash. |
| FileField.StoredNameRoundTrip | classes/jelly/field/file.php:48-54 | Cutting the field's path out of that path followed by a name gives back the name. This requires that the name neither contains the path nor starts or ends with a slash. |
| FileField.SaveKeepsFileName | classes/jelly/field/file.php:45-54 | When the upload is stored at the field's directory followed by a name, the saved value is exactly that name. This requires that the name neither contains the directory nor starts or ends with `/`. |
| FileField.SaveKeepsOtherFiles | classes/jelly/field/file.php:56-65 | A save removes no file other than the previous one. It removes nothing at all when old files are kept or the previous value equals the default. |
| FileField.Delete | classes/jelly/field/file.php:82-94 | The stored file is unlinked exactly when the value differs loosely from the default and the file exists. Afterwards that file is gone and every other file remains. A value equal to the default leaves the filesystem alone. |
| FileField.CheckFilesize | classes/jelly/field/file.php:130-136 | When the upload carries error code 1 (`UPLOAD_ERR_INI_SIZE`), a `file_too_big` error naming the ini limit is recorded for the field and every other error is kept. Otherwise the errors are unchanged. |
| FileField.TooBigCases | classes/jelly/field/file.php:133 | An integer error code counts as too big exactly when it is 1 (`UPLOAD_ERR_INI_SIZE`). The string `"1"` counts too. Code 0, a missing error code and a non-array value do not. |
| Outcome.Collect | classes/jelly/core/field/image.php:90-111 | A loop over throwing steps succeeds exactly when every step does, and then yields every step's value in order. Otherwise it throws the error of the first step that throws. |
| Php.Union | classes/jelly/core/field/image.php:85 | Array `+` keeps the left operand's entries in place and appends the right operand's entries whose keys the left lacks. Every key then reads from the left operand when present there, else from the right. |
| Php.Put | classes/jelly/core/field/image.php:98 | `$a[$k] = $v` makes `k` read `v` and leaves every other key's lookup alone. It keeps the keys unique. An existing key is overwritten in place; a new key is appended. |
| Php.LooseEqSymmetric | classes/jelly/field/file.php:57 | Loose `==` gives the same answer with its operands swapped. |
| Php.LooseEqCases | classes/jelly/field/file.php:57 | Under PHP 8 rules: null equals `""` but not a file name; `0` does not equal a non-numeric file name; `100` equals `"100"`; `"0100"` equals `"100"`; `true` equals a non-empty name; `"0"` does not equal null. |
| Php.LessThanIntExcludesEqual | classes/jelly/core/field/image.php:136 | A value loosely below an integer is never loosely equal to it. |
| CoreImageField.DefaultsShape | classes/jelly/core/field/image.php:50-63 | The defaults hold path, prefix, resize, crop, quality and driver, each once. Quality is 100 and the others are null. |
| CoreImageField.WithDefaults | classes/jelly/core/field/image.php:85 | Completing options with the defaults keeps every given entry in place and adds exactly the missing default keys. A missing quality reads 100; every other missing key reads null. Unique keys stay unique. |
| CoreImageField.ThumbnailWithPath | classes/jelly/core/field/image.php:95-99 | A falsy thumbnail path is left alone. A set one is replaced by its checked directory form, which is truthy, or the step throws the unwritable-path error. No other key changes. |
| CoreImageField.PrepareThumbnail | classes/jelly/core/field/image.php:92-110 | A thumbnail is completed with the defaults and its path checked. It is refused exactly when it has no prefix and its path is empty or the original's. A thumbnail that is not an array cannot be completed. A kept thumbnail has all the default keys and a string path if any. It is never the no-prefix, same-path case; whether it can still overwrite the original depends on its prefix (see `ThumbnailSparesOriginal`). |
| CoreImageField.ThumbnailWithoutPathOrPrefix | classes/jelly/core/field/image.php:101-107 | A thumbnail that sets neither a path nor a prefix is refused. |
| CoreImageField.ThumbnailWithPrefixOnly | classes/jelly/core/field/image.php:101-110 | A thumbnail with a prefix and no path is accepted as given, completed with the defaults. |
| CoreImageField.ThumbnailKeepsOptions | classes/jelly/core/field/image.php:92-110 | An accepted thumbnail keeps every option it set, the path aside. |
| CoreImageField.CompletedThumbnailValid | classes/jelly/core/field/image.php:93-110 | A thumbnail completed with the defaults and past the path step has every default key and a string path if any. |
| CoreImageField.PreparedThumbnailsValid | classes/jelly/core/field/image.php:89-111 | When the thumbnail loop succeeds, every thumbnail it keeps is valid for the field's directory. |
| CoreImageField.Construct | classes/jelly/core/field/image.php:82-112 | The field is built exactly when its path check and every thumbnail pass. A bad field path throws the path check's error; otherwise a failing thumbnail loop throws that loop's error. The thumbnails are exactly what the loop kept. Path, resize, crop, quality (100 when unset) and driver come from the completed options. Every kept thumbnail is valid against the checked path. |
| CoreImageField.PreparedThumbnailAt | classes/jelly/core/field/image.php:90-111 | When the thumbnail loop succeeds, it keeps one thumbnail per given thumbnail, in order, each the result of that thumbnail's own pass. |
| CoreImageField.ConstructKeepsThumbnails | classes/jelly/core/field/image.php:82-112 | A constructed field has exactly one thumbnail per configured thumbnail, in order. Each keeps every option it set other than the path. |
| CoreImageField.MethodCalls | classes/jelly/core/field/image.php:213-219 | Every call made is an entry of the method array whose key is one of the eight image methods and whose arguments are a non-empty array. |
| CoreImageField.MethodCallsAppend | classes/jelly/core/field/image.php:211-219 | The calls follow the order of the configuration array. |
| CoreImageField.MethodCallsExactly | classes/jelly/core/field/image.php:213-219 | A call is made if and only if the array holds that method with those arguments, the method is whitelisted and the arguments are a non-empty array. |
| CoreImageField.Refactor | classes/jelly/core/field/image.php:206-223 | The refactoring throws exactly when a whitelisted method has truthy arguments that are not an array. Otherwise the job loads the source with the given driver, or the library default when the driver is falsy. It makes exactly the calls of `MethodCalls`, in order, and saves once to the destination with the quality. |
| CoreImageField.OriginalUntouchedByDefault | classes/jelly/core/field/image.php:136 | With no resize, no crop and quality 100 (as an integer or the string `"100"`), the original is left as uploaded. An integer quality below 100 re-saves it. |
| CoreImageField.OriginalCalls | classes/jelly/core/field/image.php:141-151 | The original's method array makes the resize call before the crop call. Each is called when its option is a non-empty array, and it throws exactly when a truthy option is not an array. |
| CoreImageField.OriginalRefactor | classes/jelly/core/field/image.php:136-165 | The original's job overwrites the uploaded file with the field's driver and quality, resizing and then cropping. It throws exactly when a truthy resize or crop option is not an array. |
| CoreImageField.ThumbnailDirectory | classes/jelly/core/field/image.php:173-182 | A thumbnail goes to its own path when set, else to the original's directory. A kept thumbnail without a prefix never goes to the original's directory. |
| CoreImageField.ThumbnailRefactor | classes/jelly/core/field/image.php:186-191 | A thumbnail's job is made from the uploaded source with the thumbnail's own methods, driver and quality. It writes to the thumbnail directory, prefix and new file name, and throws exactly when the thumbnail holds bad arguments. |
| CoreImageField.ThumbnailSparesOriginal | classes/jelly/core/field/image.php:101-110 | A thumbnail the constructor accepts, with a prefix that holds no slash, is never written over the original. |
| CoreImageField.SlashedPrefixOverwrites | classes/jelly/core/field/image.php:101-110 | A field in `/x/y/` accepts a thumbnail in `/x/` with prefix `y/`. That thumbnail is written over the original. |
| CoreImageField.SlashedThumbnailValid | classes/jelly/core/field/image.php:93-110 | The constructor's checks accept that thumbnail for a field in `/x/y/`. |
| CoreImageField.Completed | classes/jelly/core/field/image.php:170-192 | The loop completes exactly the thumbnails before the first one holding arguments that are not an array. |
| CoreImageField.ThumbnailActions | classes/jelly/core/field/image.php:170-192 | The thumbnails are processed in their configured order. For each completed thumbnail, the delete request sits at 2i and its job at 2i+1. The thumbnail whose refactoring throws still gets its delete request, and then the loop stops with that error. No error means every thumbnail completed. |
| CoreImageField.Upload | classes/jelly/core/field/image.php:123-194 | Nothing happens when the inherited upload fails. The original is processed first, and only when it is resized, cropped or saved below quality 100; if that refactoring throws, nothing else happens. Thumbnails are handled, in order, only when the value changed, and the thumbnail requests follow the original's job. The upload ends with an error exactly when a thumbnail refactoring throws. |
| ImageField.ResizeOps | classes/jelly/field/image.php:120-136 | A resize recipe is at most two operations, all on the thumbnail's destination width and height. Two operations are always a cover-resize followed by a crop. |
| ImageField.CropRecipe | classes/jelly/field/image.php:124-126 | RESIZE_TYPE_CROP crops to the destination size. |
| ImageField.FitRecipe | classes/jelly/field/image.php:127-129 | RESIZE_TYPE_FIT resizes to fit the destination size. |
| ImageField.ExactFitRecipe | classes/jelly/field/image.php:130-132 | RESIZE_TYPE_EXACT_FIT resizes to cover the destination size and then crops to it. |
| ImageField.NoRecipe | classes/jelly/field/image.php:133-135 | RESIZE_TYPE_NONE, or no resize type, makes the thumbnail a plain copy. |
| ImageField.UnknownTypeNoRecipe | classes/jelly/field/image.php:123-136 | A resize type loosely equal to none of the three recipe names leaves the image as it is. |
| ImageField.ZeroTypeNoRecipe | classes/jelly/field/image.php:123-136 | The integer 0 matches no recipe name under PHP 8 comparison, so it leaves the image as it is. |
| ImageField.TrueTypeSelectsCrop | classes/jelly/field/image.php:123-126 | `true` loosely equals the crop name, so the switch takes its first case and crops. |
| ImageField.DefaultTypeRule | classes/jelly/field/image.php:71-73 | The `Upload::type` rule is always set afterwards. A rule already set is kept. Otherwise the rule becomes jpg, gif, png and jpeg, and every other rule is left alone. |
| ImageField.Construct | classes/jelly/field/image.php:62-74 | The field is built exactly when its own path and every thumbnail path pass the check. A failing field path throws its check's error; otherwise the first thumbnail whose check fails decides the error. The thumbnails stay as given and the type rule is defaulted. |
| ImageField.ThumbnailChecksFirstError | classes/jelly/field/image.php:67-69 | The thumbnail loop succeeds exactly when every thumbnail path passes. Otherwise it throws the error of the first thumbnail whose check fails, every earlier one having passed. |
| ImageField.StoredName | classes/jelly/field/image.php:96-103 | The stored name neither starts nor ends with the directory separator. |
| ImageField.StoredNameRoundTrip | classes/jelly/field/image.php:96-103 | A file saved as resolved directory, separator and name gives back exactly the name. This requires that the name neither contains that prefix nor starts or ends with a separator. |
| ImageField.OldFilename | classes/jelly/field/image.php:87-90 | The previous file name is the stored value when the field retains values and the model is loaded. Otherwise it is the default. |
| ImageField.ThumbnailJob | classes/jelly/field/image.php:120-137 | A thumbnail's job loads the source with the default driver and no quality. It applies the resize recipe and writes the new file name into the thumbnail directory. |
| ImageField.ThumbnailJobs | classes/jelly/field/image.php:113-138 | Exactly one job per thumbnail, in the order of the thumbnails. |
| ImageField.ThumbnailStep | classes/jelly/field/image.php:114-137 | One thumbnail's previous file is unlinked only when the value changed and the file exists. When both hold, that unlink comes first. Then the thumbnail is written. |
| ImageField.ThumbnailSteps | classes/jelly/field/image.php:113-138 | The thumbnail loop runs exactly the thumbnails' jobs in order. It unlinks only previous thumbnails, only existing files, and nothing when the value did not change. When the value changed and the first thumbnail's previous file exists, the loop starts by unlinking it. |
| ImageField.ThumbnailUnlinked | classes/jelly/field/image.php:113-118 | When the value changed, the loop unlinks the previous file of every thumbnail whose previous file exists when that thumbnail's turn comes. |
| ImageField.SaveUnlinksOldThumbnail | classes/jelly/field/image.php:105-118 | A successful save whose previous name differs loosely from the default unlinks the previous file of every thumbnail that still exists when the loop reaches it. |
| ImageField.FirstSteps | classes/jelly/field/image.php:94-109 | The upload is stored first. The previous image is unlinked right after it if and only if the value changed and the file exists; nothing else is unlinked. |
| ImageField.Save | classes/jelly/field/image.php:85-151 | Without a valid, stored upload the previous file name is returned and nothing happens. Otherwise the stored name is returned, the upload is stored first, and exactly the thumbnails' jobs run. When the value changed and the previous image exists, it is unlinked right after the store. Only the previous image and previous thumbnails are ever unlinked, never when the previous name equals the default, and only when they exist. |
| ImageField.SaveKeepsOtherFiles | classes/jelly/field/image.php:105-118 | A save removes no file except the previous image and its previous thumbnails. It removes nothing when the previous name equals the default. |
| ImageField.WithoutRetainNothingDeleted | classes/jelly/field/image.php:87-109 | A field that does not retain values never deletes an old image or thumbnail on save. |

## Left out

- The filesystem and the image library are not touched. Uploads, unlinks and image saves are recorded as plan steps, and the pixel work of `Image` is not modelled.
- Classes outside the four field files are not part of this model: `Jelly_Field`, `Jelly_Field_String`, `Upload`, `Image`, `Validation`, `Jelly_Model`, `Jelly::select`. What the fields read from them is taken as a parameter.
- `_default`, the parent `_upload` and `_delete_old_file` are inherited methods whose code is not part of this model. Their results are parameters. `_delete_old_file` appears only as a recorded `DeleteOldFile` action.
- Field properties come from the option array. This assumes that the `Jelly_Field` constructor copies option keys onto properties, as its use here implies.
- The numeric value of `Image::INVERSE` is not fixed: the cover-resize is its own operation.
- Numeric strings are optional sign plus decimal digits. Floats, exponents and surrounding whitespace are not modelled. Loose `==` between two arrays is structural equality rather than PHP's key-by-key loose comparison; the fields never compare arrays.
- Characters stand for bytes. `strtolower` lowers ASCII `A`-`Z` only, as in PHP 8 without locale.
- `trim` takes its character list as a set. The `..` range syntax of the list is not modelled. Neither are `$n` back-references that a custom slug separator could contain.
- `realpath` and `is_writable` are oracles, including what `realpath` does with an empty path.
- Concurrency and the race between `file_exists` and `unlink` are not modelled.
- The view template and the tests are not modelled.
- PHP 8 semantics are assumed throughout. Under PHP 7 `call_user_func_array` with arguments that are not an array, `strtolower` of an array and `realpath` of an array warn and go on instead of throwing; that behaviour is not modelled.
- The older image field's thumbnails are arrays by type. A non-array thumbnail would be a PHP error there and is not modelled. The core field models it as a thrown error.
- FileField.Save: does not model `Upload::save` throwing. It raises a `Kohana_Exception` when the upload directory is not writable, which would end the save with nothing stored. The `saved` parameter covers only its FALSE and path results. `ImageField.Save` takes the same parameter and has the same gap.
- CoreImageField.Upload: records each `_delete_old_file` request but not what it deletes, because that policy lives in the parent class.
- CoreImageField.WithDefaults: the core constructor merges `Jelly_Field_Image::$defaults`. In this repository that name belongs to the older image class, which declares no `$defaults`. The model uses the core class's own `$defaults` (classes/jelly/core/field/image.php:50-63), which is evidently what is meant.
- ImageField.Save: states the unlink of the previous image in one direction only, because a later thumbnail step may unlink the same path when a thumbnail directory is the field's own. It also does not state that every existing previous thumbnail is gone afterwards, because a later thumbnail written to the same path could recreate it. `ImageField.SaveUnlinksOldThumbnail` states instead that the save unlinks each such thumbnail at its turn.
- Slug.Set: states the slug grammar only for separators made of `[a-z0-9-]` without a double dash. With any other separator the result can contain the separator's own bytes, which the model does not characterise beyond the trimmed ends.

=== FILE: core_image_field.dfy ===
/** The image field of the Jelly core (Jelly_Core_Field_Image): option
    defaults, thumbnail validation, and the plan of image jobs an upload
    produces for the original and for each thumbnail.
 */
module CoreImageField {
  import opened Outcome
  import opened Php
  import opened Plan
  import FileField
  import PhpString

  /** The `$defaults` every option set and every thumbnail is completed with. */
  const Defaults: Entries := [
    (StrKey("path"), Null),
    (StrKey("prefix"), Null),
    (StrKey("resize"), Null),
    (StrKey("crop"), Null),
    (StrKey("quality"), Int(100)),
    (StrKey("driver"), Null)]

  const DefaultKeys: set<Key> :=
    {StrKey("path"), StrKey("prefix"), StrKey("resize"), StrKey("crop"), StrKey("quality"), StrKey("driver")}

  /** The image methods `_refactor` is willing to call. */
  const RefactorMethods: set<string> :=
    {"resize", "crop", "rotate", "flip", "sharpen", "reflection", "watermark", "background"}

  /** The properties the field's logic reads; `path` is the checked
      directory and every thumbnail is completed and checked. */
  datatype CoreImageField = CoreImageField(
    path: string,
    resize: Value,
    crop: Value,
    quality: Value,
    driver: Value,
    thumbnails: seq<Entries>)

  lemma DefaultsShape()
    ensures Keys(Defaults) == DefaultKeys
    ensures UniqueKeys(Defaults)
    ensures Lookup(Defaults, StrKey("quality")) == Some(Int(100))
    ensures forall k :: k in DefaultKeys && k != StrKey("quality") ==> Lookup(Defaults, k) == Some(Null)
    ensures forall k :: Get(Defaults, k) == if k == StrKey("quality") then Int(100) else Null
  {
    assert Defaults[1..][1..][1..][1..][1..][1..] == [];
  }

  // ---------------------------------------------------------------------
  // __construct
  // ---------------------------------------------------------------------

  /** `$options += $defaults`: the options keep every key and value they
      have, in place, and gain each default key they lack. */
  function WithDefaults(options: Entries): (r: Entries)
    ensures |r| >= |options| && forall i :: 0 <= i < |options| ==> r[i] == options[i]
    ensures Keys(r) == Keys(options) + DefaultKeys
    ensures forall k :: k in DefaultKeys && k !in Keys(options) ==> Lookup(r, k) == Lookup(Defaults, k)
    ensures Get(r, StrKey("quality")) == if StrKey("quality") in Keys(options) then Get(options, StrKey("quality")) else Int(100)
    ensures forall k :: k != StrKey("quality") ==> Get(r, k) == Get(options, k)
    ensures UniqueKeys(options) ==> UniqueKeys(r)
  {
    DefaultsShape();
    Union(options, Defaults)
  }

  /** No prefix, and a path that is empty or the original's: the case the
      constructor refuses. */
  predicate SharesOriginalPath(t: Entries, fieldPath: string) {
    !Truthy(Get(t, StrKey("prefix")))
    && (Get(t, StrKey("path")) == Str(fieldPath) || !Truthy(Get(t, StrKey("path"))))
  }

  /** What the constructor guarantees of every thumbnail it keeps: all
      default keys present, a set path already in checked (string) form,
      and not both without a prefix and in the original's directory. */
  predicate ValidThumbnail(t: Entries, fieldPath: string) {
    && DefaultKeys <= Keys(t)
    && (Truthy(Get(t, StrKey("path"))) ==> Get(t, StrKey("path")).Str?)
    && !SharesOriginalPath(t, fieldPath)
  }

  /** A checked path is never falsy: it ends with a slash. */
  lemma CheckedPathTruthy(path: Value, env: FileField.Env)
    requires FileField.CheckPath(path, env).Ok?
    ensures Truthy(Str(FileField.CheckPath(path, env).value))
  {
    var r := FileField.CheckPath(path, env).value;
    assert r[|r| - 1] == '/';
    assert r != "" && r != "0";
  }

  /** The path step of the thumbnail loop: a set path is replaced by its
      checked directory form, which throws when it is not writable; nothing
      else changes. */
  function ThumbnailWithPath(m: Entries, env: FileField.Env): (r: Result<Entries>)
    ensures var p := Get(m, StrKey("path"));
      && (!Truthy(p) ==> r == Ok(m))
      && (Truthy(p) ==> (r.Ok? <==> FileField.CheckPath(p, env).Ok?))
      && (r.Thrown? ==> r == Thrown(FileField.CheckPath(p, env).error))
      && (r.Ok? && Truthy(p) ==>
            && Get(r.value, StrKey("path")) == Str(FileField.CheckPath(p, env).value)
            && Truthy(Get(r.value, StrKey("path"))))
    ensures r.Ok? ==>
      && Keys(r.value) == Keys(m)
      && (forall k :: k != StrKey("path") ==> Lookup(r.value, k) == Lookup(m, k))
      && |r.value| == |m| && (forall i :: 0 <= i < |m| ==> r.value[i].0 == m[i].0)
  {
    var p := Get(m, StrKey("path"));
    if !Truthy(p) then Ok(m)
    else
      var c := FileField.CheckPath(p, env);
      if c.Thrown? then Thrown(c.error)
      else
        CheckedPathTruthy(p, env);
        Ok(Put(m, StrKey("path"), Str(c.value)))
  }

  /** One pass of the constructor's thumbnail loop: complete with the
      defaults, normalise a set path, and refuse a thumbnail without a
      prefix whose path is empty or the original's. A thumbnail that is not
      an array cannot be added to the defaults. */
  function PrepareThumbnail(t: Value, fieldPath: string, env: FileField.Env): (r: Result<Entries>)
    ensures !t.Arr? ==> r == Thrown(UnsupportedOperand)
    ensures t.Arr? ==>
      var c := ThumbnailWithPath(WithDefaults(t.entries), env);
      && (c.Thrown? ==> r == Thrown(c.error))
      && (c.Ok? ==> (r.Thrown? <==> SharesOriginalPath(c.value, fieldPath)))
      && (c.Ok? && r.Thrown? ==> r.error == ThumbnailNeedsPathOrPrefix)
      && (r.Ok? ==> r.value == c.value)
    ensures r.Ok? ==> ValidThumbnail(r.value, fieldPath)
  {
    if !t.Arr? then Thrown(UnsupportedOperand)
    else
      var c := ThumbnailWithPath(WithDefaults(t.entries), env);
      if c.Thrown? then Thrown(c.error)
      else if SharesOriginalPath(c.value, fieldPath) then Thrown(ThumbnailNeedsPathOrPrefix)
      else
        CompletedThumbnailValid(t.entries, fieldPath, env);
        Ok(c.value)
  }

  /** A thumbnail completed with the defaults and past the path step keeps
      every default key and a string path, if any. */
  lemma CompletedThumbnailValid(t: Entries, fieldPath: string, env: FileField.Env)
    requires ThumbnailWithPath(WithDefaults(t), env).Ok?
    requires !SharesOriginalPath(ThumbnailWithPath(WithDefaults(t), env).value, fieldPath)
    ensures ValidThumbnail(ThumbnailWithPath(WithDefaults(t), env).value, fieldPath)
  {
    var m := WithDefaults(t);
    assert DefaultKeys <= Keys(m);
  }

  /** A thumbnail that sets neither a prefix nor a path is refused. */
  lemma ThumbnailWithoutPathOrPrefix(t: Entries, fieldPath: string, env: FileField.Env)
    requires !Truthy(Get(t, StrKey("prefix"))) && !Truthy(Get(t, StrKey("path")))
    ensures PrepareThumbnail(Arr(t), fieldPath, env) == Thrown(ThumbnailNeedsPathOrPrefix)
  {
    var m := WithDefaults(t);
    assert ThumbnailWithPath(m, env) == Ok(m);
    assert SharesOriginalPath(m, fieldPath);
  }

  /** A thumbnail with a prefix and no path is kept as it is, completed
      with the defaults: it goes to the original's directory. */
  lemma ThumbnailWithPrefixOnly(t: Entries, fieldPath: string, env: FileField.Env)
    requires Truthy(Get(t, StrKey("prefix"))) && !Truthy(Get(t, StrKey("path")))
    ensures PrepareThumbnail(Arr(t), fieldPath, env) == Ok(WithDefaults(t))
  {
    var m := WithDefaults(t);
    assert ThumbnailWithPath(m, env) == Ok(m);
    assert !SharesOriginalPath(m, fieldPath);
  }

  /** A kept thumbnail keeps every option it sets, the path aside. */
  lemma ThumbnailKeepsOptions(t: Entries, fieldPath: string, env: FileField.Env, k: Key)
    requires PrepareThumbnail(Arr(t), fieldPath, env).Ok?
    requires k in Keys(t) && k != StrKey("path")
    ensures Get(PrepareThumbnail(Arr(t), fieldPath, env).value, k) == Get(t, k)
  {
    var m := WithDefaults(t);
    var c := ThumbnailWithPath(m, env);
    assert Lookup(c.value, k) == Lookup(m, k);
  }

  /** The whole thumbnail loop: stops at the first thumbnail that throws. */
  function PrepareThumbnails(ts: seq<Value>, fieldPath: string, env: FileField.Env): Result<seq<Entries>> {
    Collect(seq(|ts|, i requires 0 <= i < |ts| => PrepareThumbnail(ts[i], fieldPath, env)))
  }

  /** The entries of the `thumbnails` property; anything but an array is
      skipped by `foreach`, like an empty list. */
  function ThumbnailValues(v: Value): seq<Value> {
    match v
    case Arr(es) => seq(|es|, i requires 0 <= i < |es| => es[i].1)
    case _ => []
  }

  /** Every thumbnail the loop keeps carries all the default keys and has
      a prefix or a path other than the original's. */
  lemma PreparedThumbnailsValid(ts: seq<Value>, fieldPath: string, env: FileField.Env)
    ensures var r := PrepareThumbnails(ts, fieldPath, env);
      r.Ok? ==> forall i :: 0 <= i < |r.value| ==> ValidThumbnail(r.value[i], fieldPath)
  {
    var rs := seq(|ts|, i requires 0 <= i < |ts| => PrepareThumbnail(ts[i], fieldPath, env));
    assert forall i :: 0 <= i < |rs| ==> rs[i] == PrepareThumbnail(ts[i], fieldPath, env);
  }

  /** Jelly_Core_Field_Image::__construct. `options` are the field options;
      the properties are read from the options once completed with the
      defaults. */
  function Construct(options: Entries, env: FileField.Env): (r: Result<CoreImageField>)
    ensures var m := WithDefaults(options);
      var check := FileField.CheckPath(Get(m, StrKey("path")), env);
      && (check.Thrown? ==> r == Thrown(check.error))
      && (r.Ok? <==> check.Ok? && PrepareThumbnails(ThumbnailValues(Get(m, StrKey("thumbnails"))), check.value, env).Ok?)
      && (check.Ok? && PrepareThumbnails(ThumbnailValues(Get(m, StrKey("thumbnails"))), check.value, env).Thrown? ==>
            r == Thrown(PrepareThumbnails(ThumbnailValues(Get(m, StrKey("thumbnails"))), check.value, env).error))
      && (r.Ok? ==> r.value.path == check.value)
      && (r.Ok? ==> r.value.thumbnails == PrepareThumbnails(ThumbnailValues(Get(m, StrKey("thumbnails"))), check.value, env).value)
    ensures r.Ok? ==>
      (&& r.value.quality == (if StrKey("quality") in Keys(options) then Get(options, StrKey("quality")) else Int(100))
       && r.value.resize == Get(options, StrKey("resize"))
       && r.value.crop == Get(options, StrKey("crop"))
       && r.value.driver == Get(options, StrKey("driver"))
       && (forall i :: 0 <= i < |r.value.thumbnails| ==> ValidThumbnail(r.value.thumbnails[i], r.value.path)))
  {
    var m := WithDefaults(options);
    var check := FileField.CheckPath(Get(m, StrKey("path")), env);
    if check.Thrown? then Thrown(check.error)
    else
      var ts := ThumbnailValues(Get(m, StrKey("thumbnails")));
      var thumbs := PrepareThumbnails(ts, check.value, env);
      PreparedThumbnailsValid(ts, check.value, env);
      if thumbs.Thrown? then Thrown(thumbs.error)
      else
        Ok(CoreImageField(
          check.value,
          Get(m, StrKey("resize")),
          Get(m, StrKey("crop")),
          Get(m, StrKey("quality")),
          Get(m, StrKey("driver")),
          thumbs.value))
  }

  /** The loop keeps the thumbnails in order, one for each it was given. */
  lemma PreparedThumbnailAt(ts: seq<Value>, fieldPath: string, env: FileField.Env, i: int)
    requires PrepareThumbnails(ts, fieldPath, env).Ok? && 0 <= i < |ts|
    ensures |PrepareThumbnails(ts, fieldPath, env).value| == |ts|
    ensures PrepareThumbnail(ts[i], fieldPath, env).Ok?
    ensures PrepareThumbnails(ts, fieldPath, env).value[i] == PrepareThumbnail(ts[i], fieldPath, env).value
  {
    var rs := seq(|ts|, j requires 0 <= j < |ts| => PrepareThumbnail(ts[j], fieldPath, env));
    assert rs[i] == PrepareThumbnail(ts[i], fieldPath, env);
  }

  /** The thumbnails of a constructed field are the thumbnails it was given,
      in order, each keeping every option it set other than the path. */
  lemma ConstructKeepsThumbnails(options: Entries, env: FileField.Env, i: int, k: Key)
    requires Construct(options, env).Ok?
    requires 0 <= i < |ThumbnailValues(Get(WithDefaults(options), StrKey("thumbnails")))|
    requires ThumbnailValues(Get(WithDefaults(options), StrKey("thumbnails")))[i].Arr?
    requires k in Keys(ThumbnailValues(Get(WithDefaults(options), StrKey("thumbnails")))[i].entries)
    requires k != StrKey("path")
    ensures var ts := ThumbnailValues(Get(WithDefaults(options), StrKey("thumbnails")));
      var r := Construct(options, env).value;
      && |r.thumbnails| == |ts|
      && Get(r.thumbnails[i], k) == Get(ts[i].entries, k)
  {
    var m := WithDefaults(options);
    var path := Construct(options, env).value.path;
    var ts := ThumbnailValues(Get(m, StrKey("thumbnails")));
    PreparedThumbnailAt(ts, path, env, i);
    assert ts[i] == Arr(ts[i].entries);
    ThumbnailKeepsOptions(ts[i].entries, path, env, k);
  }

  // ---------------------------------------------------------------------
  // _refactor
  // ---------------------------------------------------------------------

  /** An entry of a method array that `_refactor` calls: one of the image
      methods, with a non-empty argument array. */
  predicate Invoked(e: (Key, Value)) {
    e.0.StrKey? && e.0.s in RefactorMethods && Truthy(e.1) && e.1.Arr?
  }

  /** An entry that makes `call_user_func_array` throw: one of the image
      methods, with truthy arguments that are not an array. */
  predicate BadArguments(e: (Key, Value)) {
    e.0.StrKey? && e.0.s in RefactorMethods && Truthy(e.1) && !e.1.Arr?
  }

  predicate HasBadArguments(methods: Entries) {
    exists i :: 0 <= i < |methods| && BadArguments(methods[i])
  }

  /** The calls `_refactor` makes, in the order of the array. */
  function MethodCalls(methods: Entries): (ops: seq<Op>)
    ensures |ops| <= |methods|
    ensures forall i :: 0 <= i < |ops| ==>
      ops[i].Call? && ops[i].name in RefactorMethods && Truthy(ops[i].args) && ops[i].args.Arr?
      && (StrKey(ops[i].name), ops[i].args) in methods
    decreases |methods|
  {
    if |methods| == 0 then []
    else
      var e := methods[0];
      var rest := MethodCalls(methods[1..]);
      assert forall x :: x in methods[1..] ==> x in methods;
      if Invoked(e) then [Call(e.0.s, e.1)] + rest else rest
  }

  /** The calls for two consecutive parts of an array are the calls for
      the first part followed by those for the second: the order of the
      configuration is kept. */
  lemma {:induction false} MethodCallsAppend(a: Entries, b: Entries)
    ensures MethodCalls(a + b) == MethodCalls(a) + MethodCalls(b)
    decreases |a|
  {
    if |a| == 0 {
      assert a + b == b;
    } else {
      assert (a + b)[0] == a[0];
      assert (a + b)[1..] == a[1..] + b;
      MethodCallsAppend(a[1..], b);
    }
  }

  /** A call is made exactly for the entries whose key is one of the image
      methods and whose arguments are a non-empty array; `path`, `prefix`,
      `quality` and `driver` are never called. */
  lemma {:induction false} MethodCallsExactly(methods: Entries, name: string, args: Value)
    ensures Call(name, args) in MethodCalls(methods) <==>
      (StrKey(name), args) in methods && name in RefactorMethods && Truthy(args) && args.Arr?
    decreases |methods|
  {
    if |methods| > 0 {
      MethodCallsExactly(methods[1..], name, args);
      assert methods == [methods[0]] + methods[1..];
    }
  }

  /** Jelly_Core_Field_Image::_refactor: load the source with the given
      driver (a falsy one means the library default), call the methods, save
      once to the destination with the quality. Truthy arguments that are not
      an array make `call_user_func_array` throw before anything is saved. */
  function Refactor(source: string, driver: Value, methods: Entries, destination: Option<string>, quality: Value)
    : (r: Result<ImageJob>)
    ensures r.Thrown? <==> HasBadArguments(methods)
    ensures r.Thrown? ==> r.error == ArgumentsNotArray
    ensures r.Ok? ==>
      && r.value.source == source
      && r.value.driver == (if Truthy(driver) then Named(driver) else DefaultDriver)
      && r.value.destination == destination && r.value.quality == Some(quality)
      && r.value.ops == MethodCalls(methods)
  {
    if HasBadArguments(methods) then Thrown(ArgumentsNotArray)
    else Ok(ImageJob(source, if Truthy(driver) then Named(driver) else DefaultDriver, MethodCalls(methods), destination, Some(quality)))
  }

  // ---------------------------------------------------------------------
  // _upload
  // ---------------------------------------------------------------------

  /** What `_upload` asks for. `DeleteOldFile` is a call to the inherited
      `_delete_old_file`, whose policy is not part of this model. */
  datatype Action =
    | DeleteOldFile(file: string, directory: string)
    | Transform(job: ImageJob)

  /** The requests `_upload` made, in order, and the error it stopped with,
      if any. */
  datatype UploadOutcome = UploadOutcome(actions: seq<Action>, error: Option<Error>)

  /** Whether the original itself is resized, cropped or re-saved. */
  predicate RefactorsOriginal(f: CoreImageField) {
    Truthy(f.resize) || Truthy(f.crop) || LessThanInt(f.quality, 100)
  }

  /** With no resize, no crop and the default quality the original is left
      as uploaded; any integer quality below 100 re-saves it. */
  lemma OriginalUntouchedByDefault(f: CoreImageField)
    ensures !Truthy(f.resize) && !Truthy(f.crop) && f.quality == Int(100) ==> !RefactorsOriginal(f)
    ensures !Truthy(f.resize) && !Truthy(f.crop) && f.quality == Str("100") ==> !RefactorsOriginal(f)
    ensures f.quality.Int? && f.quality.i < 100 ==> RefactorsOriginal(f)
  {
    if f.quality == Str("100") {
      assert PhpString.IsNumeric("100") && PhpString.NumericValue("100") == 100 by {
        assert "100"[..2] == "10" && "10"[..1] == "1" && "1"[..0] == "";
      }
    }
  }

  /** The method array built for the original: resize first, then crop. */
  function OriginalMethods(f: CoreImageField): Entries {
    var withResize := if Truthy(f.resize) then Put([], StrKey("resize"), f.resize) else [];
    if Truthy(f.crop) then Put(withResize, StrKey("crop"), f.crop) else withResize
  }

  predicate EndsWithSlash(s: string) {
    |s| > 0 && s[|s| - 1] == '/'
  }

  /** The directory a thumbnail goes to: its own path if set, else the
      original's. A thumbnail without a prefix never goes to the original's
      directory. */
  function ThumbnailDirectory(f: CoreImageField, t: Entries): (dir: string)
    ensures ValidThumbnail(t, f.path) && !Truthy(Get(t, StrKey("prefix"))) ==> dir != f.path
  {
    if Truthy(Get(t, StrKey("path"))) then ToStr(Get(t, StrKey("path"))) else f.path
  }

  function ThumbnailPrefix(t: Entries): string {
    ToStr(Get(t, StrKey("prefix")))
  }

  /** The file a thumbnail of the upload `filename` is written to. */
  function ThumbnailDestination(f: CoreImageField, t: Entries, filename: string): string {
    ThumbnailDirectory(f, t) + ThumbnailPrefix(t) + filename
  }

  /** The request to delete a thumbnail's previous file. */
  function ThumbnailDelete(f: CoreImageField, t: Entries, original: Value): Action {
    DeleteOldFile(ThumbnailPrefix(t) + ToStr(original), ThumbnailDirectory(f, t))
  }

  /** The refactoring that makes one thumbnail: the thumbnail's own array is
      the method array, so its `resize` and `crop` run in the order it lists
      them, with its own driver and quality. */
  function ThumbnailRefactor(f: CoreImageField, t: Entries, source: string, filename: string): (r: Result<ImageJob>)
    ensures r.Thrown? <==> HasBadArguments(t)
    ensures r.Ok? ==>
      && r.value.source == source
      && Written(r.value) == ThumbnailDestination(f, t, filename)
      && r.value.driver == (if Truthy(Get(t, StrKey("driver"))) then Named(Get(t, StrKey("driver"))) else DefaultDriver)
      && r.value.quality == Some(Get(t, StrKey("quality")))
      && r.value.ops == MethodCalls(t)
  {
    Refactor(source, Get(t, StrKey("driver")), t, Some(ThumbnailDestination(f, t, filename)), Get(t, StrKey("quality")))
  }

  /** A thumbnail the constructor accepts is never written over the
      uploaded original, provided its prefix holds no slash. */
  lemma ThumbnailSparesOriginal(f: CoreImageField, t: Entries, filename: string)
    requires ValidThumbnail(t, f.path) && EndsWithSlash(f.path)
    requires '/' !in ThumbnailPrefix(t)
    ensures ThumbnailDestination(f, t, filename) != f.path + filename
  {
    var d := ThumbnailDirectory(f, t);
    var p := ThumbnailPrefix(t);
    TruthyHasText(Get(t, StrKey("prefix")));
    assert d + p != f.path by {
      if |p| > 0 {
        assert (d + p)[|d + p| - 1] == p[|p| - 1];
      } else {
        assert d + p == d;
      }
    }
    if |d + p| == |f.path| {
      assert (d + p + filename)[..|f.path|] == d + p;
      assert (f.path + filename)[..|f.path|] == f.path;
    }
  }

  /** A truthy value never converts to the empty string. */
  lemma TruthyHasText(v: Value)
    ensures Truthy(v) ==> |ToStr(v)| > 0
  {
  }

  /** As written, the check of the constructor compares only the path: a
      prefix with a slash can lead a thumbnail back into the original's
      directory, under the original's own name. */
  lemma SlashedPrefixOverwrites()
    ensures var f := CoreImageField("/x/y/", Null, Null, Int(100), Null, []);
      && ValidThumbnail(SlashedThumbnail(), f.path)
      && ThumbnailDestination(f, SlashedThumbnail(), "a.jpg") == f.path + "a.jpg"
  {
    var f := CoreImageField("/x/y/", Null, Null, Int(100), Null, []);
    SlashedThumbnailValid();
    assert ThumbnailDirectory(f, SlashedThumbnail()) == "/x/";
    assert ThumbnailPrefix(SlashedThumbnail()) == "y/";
    assert "/x/" + "y/" + "a.jpg" == "/x/y/" + "a.jpg";
  }

  /** The constructor keeps that thumbnail for a field stored in "/x/y/". */
  lemma SlashedThumbnailValid()
    ensures ValidThumbnail(SlashedThumbnail(), "/x/y/")
    ensures Get(SlashedThumbnail(), StrKey("path")) == Str("/x/")
    ensures Get(SlashedThumbnail(), StrKey("prefix")) == Str("y/")
  {
    var t := SlashedThumbnail();
    assert t[1..][1..][1..][1..][1..][1..] == [];
    assert Keys(t) == DefaultKeys;
  }

  /** A thumbnail in "/x/" with the prefix "y/", otherwise the defaults. */
  function SlashedThumbnail(): Entries {
    [(StrKey("path"), Str("/x/")), (StrKey("prefix"), Str("y/")), (StrKey("resize"), Null),
     (StrKey("crop"), Null), (StrKey("quality"), Int(100)), (StrKey("driver"), Null)]
  }

  /** How many thumbnails the loop completes before one throws: the
      thumbnails before the first whose method array holds arguments that
      are not an array. */
  function Completed(ts: seq<Entries>): (n: nat)
    ensures n <= |ts|
    ensures forall i :: 0 <= i < n ==> !HasBadArguments(ts[i])
    ensures n < |ts| ==> HasBadArguments(ts[n])
    decreases |ts|
  {
    if |ts| == 0 || HasBadArguments(ts[0]) then 0
    else
      var n := Completed(ts[1..]);
      assert forall i :: 1 <= i < |ts| ==> ts[1..][i - 1] == ts[i];
      1 + n
  }

  /** From position `k` on, `actions` hold the delete and the new file of
      each completed thumbnail, in order, followed by the delete of the
      thumbnail whose refactoring threw, if one did. */
  predicate ThumbnailsPerformed(actions: seq<Action>, k: nat, f: CoreImageField, ts: seq<Entries>,
                                source: string, filename: string, original: Value)
  {
    var n := Completed(ts);
    && |actions| == k + 2 * n + (if n < |ts| then 1 else 0)
    && (forall i :: 0 <= i < n ==>
          && actions[k + 2 * i] == ThumbnailDelete(f, ts[i], original)
          && actions[k + 2 * i + 1] == Transform(ThumbnailRefactor(f, ts[i], source, filename).value))
    && (n < |ts| ==> actions[k + 2 * n] == ThumbnailDelete(f, ts[n], original))
  }

  /** The thumbnail loop of `_upload`: per thumbnail, delete the previous
      file, then refactor; the loop stops at the first refactoring that
      throws. */
  function ThumbnailActions(f: CoreImageField, ts: seq<Entries>, source: string, filename: string, original: Value)
    : (r: UploadOutcome)
    ensures ThumbnailsPerformed(r.actions, 0, f, ts, source, filename, original)
    ensures r.error.None? <==> Completed(ts) == |ts|
    ensures r.error.Some? ==> r.error.value == ArgumentsNotArray
    decreases |ts|
  {
    if |ts| == 0 then UploadOutcome([], None)
    else
      var del := ThumbnailDelete(f, ts[0], original);
      var job := ThumbnailRefactor(f, ts[0], source, filename);
      if job.Thrown? then UploadOutcome([del], Some(job.error))
      else
        var rest := ThumbnailActions(f, ts[1..], source, filename, original);
        var here := [del, Transform(job.value)];
        ThumbnailActionsStep(here, rest.actions, ts, f, source, filename, original);
        UploadOutcome(here + rest.actions, rest.error)
  }

  lemma ThumbnailActionsStep(here: seq<Action>, rest: seq<Action>, ts: seq<Entries>,
                             f: CoreImageField, source: string, filename: string, original: Value)
    requires |ts| > 0 && ThumbnailRefactor(f, ts[0], source, filename).Ok?
    requires here == [ThumbnailDelete(f, ts[0], original), Transform(ThumbnailRefactor(f, ts[0], source, filename).value)]
    requires ThumbnailsPerformed(rest, 0, f, ts[1..], source, filename, original)
    ensures ThumbnailsPerformed(here + rest, 0, f, ts, source, filename, original)
  {
    var n := Completed(ts[1..]);
    assert Completed(ts) == n + 1;
    PairsShift(here, rest, ts, n, f, source, filename, original);
    if n + 1 < |ts| {
      assert ts[1..][n] == ts[n + 1];
      assert (here + rest)[2 * (n + 1)] == rest[2 * n];
    }
  }

  lemma PairsShift(here: seq<Action>, rest: seq<Action>, ts: seq<Entries>, n: nat,
                   f: CoreImageField, source: string, filename: string, original: Value)
    requires n < |ts| && |here| == 2 && |rest| >= 2 * n
    requires here[0] == ThumbnailDelete(f, ts[0], original)
    requires ThumbnailRefactor(f, ts[0], source, filename).Ok?
    requires here[1] == Transform(ThumbnailRefactor(f, ts[0], source, filename).value)
    requires forall i :: 0 <= i < n ==> ThumbnailRefactor(f, ts[1..][i], source, filename).Ok?
    requires forall i :: 0 <= i < n ==>
      && rest[2 * i] == ThumbnailDelete(f, ts[1..][i], original)
      && rest[2 * i + 1] == Transform(ThumbnailRefactor(f, ts[1..][i], source, filename).value)
    ensures forall i :: 0 <= i < n + 1 ==> ThumbnailRefactor(f, ts[i], source, filename).Ok?
    ensures forall i :: 0 <= i < n + 1 ==>
      && (here + rest)[2 * i] == ThumbnailDelete(f, ts[i], original)
      && (here + rest)[2 * i + 1] == Transform(ThumbnailRefactor(f, ts[i], source, filename).value)
  {
    var all := here + rest;
    forall i | 0 <= i < n + 1
      ensures ThumbnailRefactor(f, ts[i], source, filename).Ok?
      ensures all[2 * i] == ThumbnailDelete(f, ts[i], original)
      ensures all[2 * i + 1] == Transform(ThumbnailRefactor(f, ts[i], source, filename).value)
    {
      if i > 0 {
        assert ts[1..][i - 1] == ts[i];
        assert all[2 * i] == rest[2 * (i - 1)];
        assert all[2 * i + 1] == rest[2 * (i - 1) + 1];
      }
    }
  }

  /** The thumbnail requests keep their positions behind the original's job. */
  lemma PerformedAfter(first: seq<Action>, actions: seq<Action>, f: CoreImageField, ts: seq<Entries>,
                       source: string, filename: string, original: Value)
    requires ThumbnailsPerformed(actions, 0, f, ts, source, filename, original)
    ensures ThumbnailsPerformed(first + actions, |first|, f, ts, source, filename, original)
  {
  }

  /** The refactoring of the original: resize, then crop, with the field's
      driver and quality, saved over the uploaded file. */
  function OriginalRefactor(f: CoreImageField, source: string): (r: Result<ImageJob>)
    ensures r.Thrown? <==> (Truthy(f.resize) && !f.resize.Arr?) || (Truthy(f.crop) && !f.crop.Arr?)
    ensures r.Thrown? ==> r.error == ArgumentsNotArray
    ensures r.Ok? ==>
      && r.value.source == source && r.value.destination == None
      && r.value.quality == Some(f.quality)
      && r.value.driver == (if Truthy(f.driver) then Named(f.driver) else DefaultDriver)
      && r.value.ops == (if Truthy(f.resize) then [Call("resize", f.resize)] else [])
                        + (if Truthy(f.crop) then [Call("crop", f.crop)] else [])
  {
    OriginalCalls(f);
    Refactor(source, if Truthy(f.driver) then f.driver else Null, OriginalMethods(f), None, f.quality)
  }

  /** Jelly_Core_Field_Image::_upload. `uploaded` is what the inherited
      `_upload` returned, `filename` the `_filename` it set, `changed` and
      `original` the model's `changed($field)` and `original($field)`. The
      original is processed first, and only when it is resized, cropped or
      saved at a quality below 100; thumbnails are remade, in order, only
      when the value changed; a refactoring that throws ends the upload. */
  function Upload(f: CoreImageField, uploaded: bool, filename: string, changed: bool, original: Value)
    : (r: UploadOutcome)
    ensures !uploaded ==> r == UploadOutcome([], None)
    ensures uploaded && RefactorsOriginal(f) && OriginalRefactor(f, f.path + filename).Thrown? ==>
      r == UploadOutcome([], Some(ArgumentsNotArray))
    ensures uploaded && !(RefactorsOriginal(f) && OriginalRefactor(f, f.path + filename).Thrown?) ==>
      var k := if RefactorsOriginal(f) then 1 else 0;
      && (RefactorsOriginal(f) ==> |r.actions| > 0 && r.actions[0] == Transform(OriginalRefactor(f, f.path + filename).value))
      && (!changed ==> |r.actions| == k && r.error.None?)
      && (changed ==>
            && ThumbnailsPerformed(r.actions, k, f, f.thumbnails, f.path + filename, filename, original)
            && (r.error.None? <==> Completed(f.thumbnails) == |f.thumbnails|)
            && (r.error.Some? ==> r.error.value == ArgumentsNotArray))
  {
    if !uploaded then UploadOutcome([], None)
    else
      var source := f.path + filename;
      var original' := OriginalRefactor(f, source);
      if RefactorsOriginal(f) && original'.Thrown? then UploadOutcome([], Some(original'.error))
      else
        var first := if RefactorsOriginal(f) then [Transform(original'.value)] else [];
        if !changed then UploadOutcome(first, None)
        else
          var thumbs := ThumbnailActions(f, f.thumbnails, source, filename, original);
          PerformedAfter(first, thumbs.actions, f, f.thumbnails, source, filename, original);
          UploadOutcome(first + thumbs.actions, thumbs.error)
  }

  /** The calls and the failure of the original's method array. */
  lemma OriginalCalls(f: CoreImageField)
    ensures HasBadArguments(OriginalMethods(f)) <==>
      (Truthy(f.resize) && !f.resize.Arr?) || (Truthy(f.crop) && !f.crop.Arr?)
    ensures MethodCalls(OriginalMethods(f)) == (if Truthy(f.resize) && f.resize.Arr? then [Call("resize", f.resize)] else [])
                                             + (if Truthy(f.crop) && f.crop.Arr? then [Call("crop", f.crop)] else [])
  {
    var withResize := if Truthy(f.resize) then [(StrKey("resize"), f.resize)] else [];
    var withCrop := if Truthy(f.crop) then [(StrKey("crop"), f.crop)] else [];
    var all := withResize + withCrop;
    assert OriginalMethods(f) == all;
    MethodCallsAppend(withResize, withCrop);
    if Truthy(f.resize) {
      assert [(StrKey("resize"), f.resize)][1..] == [];
      assert all[0] == (StrKey("resize"), f.resize);
    }
    if Truthy(f.crop) {
      assert [(StrKey("crop"), f.crop)][1..] == [];
      assert all[|all| - 1] == (StrKey("crop"), f.crop);
    }
    assert forall i :: 0 <= i < |all| ==> all[i] == (StrKey("resize"), f.resize) || all[i] == (StrKey("crop"), f.crop);
  }
}

=== FILE: file_field.dfy ===
/** The file field (Jelly_Field_File): the writable-directory check, the
    upload-on-save decision, deletion of the stored file, and the
    upload-size validation callback.
 */
module FileField {
  import opened Outcome
  import opened PhpString
  import opened Php
  import opened Plan

  /** The runtime calls the path check relies on: `realpath` (FALSE as
      `None`) and `is_writable`. */
  datatype Env = Env(realpath: string -> Option<string>, writable: set<string>)

  /** The properties the field's logic reads. `path` is the checked
      directory, with exactly one trailing slash. */
  datatype FileField = FileField(
    name: string,
    path: string,
    default: Value,
    deleteOldFile: bool)

  // ---------------------------------------------------------------------
  // _check_path
  // ---------------------------------------------------------------------

  /** str_replace('\\', '/', p) */
  function ForwardSlashes(p: string): (r: string)
    ensures |r| == |p|
    ensures forall i :: 0 <= i < |p| ==> r[i] == (if p[i] == '\\' then '/' else p[i])
  {
    ReplaceAllChar(p, '\\', '/');
    ReplaceAll(p, "\\", "/")
  }

  /** rtrim(str_replace('\\', '/', resolved), '/') . '/' */
  function DirectoryForm(resolved: string): string {
    TrimRight(ForwardSlashes(resolved), {'/'}) + "/"
  }

  /** What a successful path check returns: no backslash, exactly one
      trailing slash, and apart from that trailing slash the resolved path
      with backslashes turned into slashes and its trailing slashes dropped. */
  predicate IsDirectoryFormOf(r: string, resolved: string) {
    var q := ForwardSlashes(resolved);
    && |r| > 0 && r[|r| - 1] == '/'
    && (|r| == 1 || r[|r| - 2] != '/')
    && (forall i :: 0 <= i < |r| ==> r[i] != '\\')
    && |r| - 1 <= |q|
    && r[..|r| - 1] == q[..|r| - 1]
    && (forall i :: |r| - 1 <= i < |q| ==> q[i] == '/')
  }

  lemma DirectoryFormShape(resolved: string)
    ensures IsDirectoryFormOf(DirectoryForm(resolved), resolved)
  {
    var q := ForwardSlashes(resolved);
    var t := TrimRight(q, {'/'});
    var r := t + "/";
    assert r[..|r| - 1] == t;
    assert forall i :: 0 <= i < |t| ==> r[i] == q[i];
  }

  /** Normalising an already normalised directory changes nothing. */
  lemma DirectoryFormIdempotent(resolved: string)
    ensures DirectoryForm(DirectoryForm(resolved)) == DirectoryForm(resolved)
  {
    var r := DirectoryForm(resolved);
    DirectoryFormShape(resolved);
    var q := ForwardSlashes(r);
    assert q == r;
    var t := TrimRight(q, {'/'});
    assert |t| == |r| - 1;
    assert t == r[..|r| - 1];
  }

  /** Jelly_Field_File::_check_path: resolves the path (backslashes first
      turned into slashes), throws unless the result is a non-empty,
      writable path, and returns it in directory form. A scalar path is
      used in its string form; for an array, str_replace hands back an
      array and realpath refuses it with a TypeError. */
  function CheckPath(path: Value, env: Env): (r: Result<string>)
    ensures path.Arr? ==> r == Thrown(StringExpected)
    ensures !path.Arr? ==>
      var resolved := env.realpath(ForwardSlashes(ToStr(path)));
      && (r.Thrown? <==> (resolved.None? || !Truthy(Str(resolved.value)) || resolved.value !in env.writable))
      && (r.Thrown? ==> r.error == UnwritablePath)
      && (r.Ok? ==> IsDirectoryFormOf(r.value, resolved.value))
  {
    if path.Arr? then Thrown(StringExpected)
    else
      match env.realpath(ForwardSlashes(ToStr(path)))
      case None => Thrown(UnwritablePath)
      case Some(resolved) =>
        if !Truthy(Str(resolved)) || resolved !in env.writable then Thrown(UnwritablePath)
        else
          DirectoryFormShape(resolved);
          Ok(DirectoryForm(resolved))
  }

  /** Jelly_Field_File::__construct: the properties left by the parent
      constructor, with `path` replaced by its checked form. */
  function Construct(name: string, path: Value, default: Value, deleteOldFile: bool, env: Env): (r: Result<FileField>)
    ensures r.Ok? <==> CheckPath(path, env).Ok?
    ensures r.Thrown? ==> r.error == (if path.Arr? then StringExpected else UnwritablePath)
    ensures r.Ok? ==>
      (&& r.value.path == CheckPath(path, env).value
       && r.value.name == name && r.value.default == default && r.value.deleteOldFile == deleteOldFile)
  {
    match CheckPath(path, env)
    case Thrown(e) => Thrown(e)
    case Ok(p) => Ok(FileField(name, p, default, deleteOldFile))
  }

  // ---------------------------------------------------------------------
  // save and delete
  // ---------------------------------------------------------------------

  /** Jelly_Field_File::save. `original` is the stored value
      (`$model->get($name, FALSE)`), `valid` is Upload::valid($value) and
      `saved` is what Upload::save returned (FALSE as `None`); `fs` is the
      filesystem before the upload. */
  function Save(f: FileField, original: Value, value: Value, valid: bool, saved: Option<string>, fs: set<string>): (o: SaveOutcome)
    ensures !(value.Arr? && valid) ==> o == SaveOutcome(value, [])
    ensures value.Arr? && valid && saved.None? ==> o == SaveOutcome(f.default, [])
    ensures value.Arr? && valid && saved.Some? ==>
      var previous := f.path + ToStr(original);
      && o.value.Str?
      && (|o.value.s| > 0 ==> o.value.s[0] != '/' && o.value.s[|o.value.s| - 1] != '/')
      && 1 <= |o.steps| <= 2
      && o.steps[0] == Store(saved.value)
      && (|o.steps| == 2 <==>
            f.deleteOldFile && !LooseEq(original, f.default) && previous in fs + {saved.value})
      && (|o.steps| == 2 ==> o.steps[1] == Unlink(previous))
    ensures Guarded(fs, o.steps)
  {
    if value.Arr? && valid then
      match saved
      case None =>
        assert Guarded(fs, []);
        SaveOutcome(f.default, [])
      case Some(filename) =>
        var stored := StoredName(filename, f.path);
        var previous := f.path + ToStr(original);
        var after := fs + {filename};
        var differs := !LooseEq(original, f.default);
        if f.deleteOldFile && differs && previous in after then
          GuardedStoreUnlink(fs, filename, previous);
          SaveOutcome(Str(stored), [Store(filename), Unlink(previous)])
        else
          GuardedStore(fs, filename);
          SaveOutcome(Str(stored), [Store(filename)])
    else
      assert Guarded(fs, []);
      SaveOutcome(value, [])
  }

  /** The saved file name with the field's path cut out and slashes trimmed
      from both ends. */
  function StoredName(filename: string, path: string): (v: string)
    ensures |v| > 0 ==> v[0] != '/' && v[|v| - 1] != '/'
  {
    Trim(ReplaceAll(filename, path, ""), {'/'})
  }

  /** When the upload helper puts the file at the field's path followed by a
      name that neither contains the path nor starts or ends with a slash,
      the saved value is exactly that name. */
  lemma SaveKeepsFileName(f: FileField, original: Value, value: Value, name: string, fs: set<string>)
    requires value.Arr? && |f.path| > 0
    requires forall i {:trigger OccursAt(name, f.path, i)} :: !OccursAt(name, f.path, i)
    requires |name| == 0 || (name[0] != '/' && name[|name| - 1] != '/')
    ensures Save(f, original, value, true, Some(f.path + name), fs).value == Str(name)
  {
    StoredNameRoundTrip(f.path, name);
  }

  /** Cutting the path out of the path followed by such a name leaves the
      name. */
  lemma StoredNameRoundTrip(path: string, name: string)
    requires |path| > 0
    requires forall i {:trigger OccursAt(name, path, i)} :: !OccursAt(name, path, i)
    requires |name| == 0 || (name[0] != '/' && name[|name| - 1] != '/')
    ensures StoredName(path + name, path) == name
  {
    ReplaceAllLeading(path, name, "");
    ReplaceAllAbsent(name, path, "");
    TrimUnchanged(name, {'/'});
  }

  /** Saving removes at most the previous file, and nothing when the
      previous value equals the default or old files are kept. */
  lemma SaveKeepsOtherFiles(f: FileField, original: Value, value: Value, valid: bool, saved: Option<string>, fs: set<string>)
    ensures fs - {f.path + ToStr(original)} <= Run(fs, Save(f, original, value, valid, saved, fs).steps)
    ensures !f.deleteOldFile || LooseEq(original, f.default) ==>
      fs <= Run(fs, Save(f, original, value, valid, saved, fs).steps)
  {
    var o := Save(f, original, value, valid, saved, fs);
    assert UnlinksWithin(o.steps, {f.path + ToStr(original)});
    RunKeepsOthers(fs, o.steps, {f.path + ToStr(original)});
    if !f.deleteOldFile || LooseEq(original, f.default) {
      assert UnlinksWithin(o.steps, {});
      RunKeepsOthers(fs, o.steps, {});
    }
  }

  /** Jelly_Field_File::delete: unlinks the stored file when the value
      differs from the default and the file exists. */
  function Delete(f: FileField, file: Value, fs: set<string>): (steps: seq<Step>)
    ensures |steps| <= 1
    ensures |steps| == 1 <==> !LooseEq(file, f.default) && f.path + ToStr(file) in fs
    ensures |steps| == 1 ==> steps[0] == Unlink(f.path + ToStr(file))
    ensures Guarded(fs, steps)
    ensures LooseEq(file, f.default) ==> Run(fs, steps) == fs
    ensures !LooseEq(file, f.default) ==> Run(fs, steps) == fs - {f.path + ToStr(file)}
  {
    var p := f.path + ToStr(file);
    if !LooseEq(file, f.default) && p in fs then
      assert Run(fs, [Unlink(p)]) == Run(fs - {p}, []);
      [Unlink(p)]
    else []
  }

  // ---------------------------------------------------------------------
  // _check_filesize
  // ---------------------------------------------------------------------

  /** The error code PHP sets when an upload exceeds upload_max_filesize. */
  const UploadErrIniSize: int := 1

  /** An error recorded on a validation object (Validate::error). */
  datatype ValidationError = ValidationError(rule: string, params: Entries)

  /** `isset($file['error']) && $file['error'] == UPLOAD_ERR_INI_SIZE` */
  predicate TooBig(file: Value) {
    file.Arr?
    && IsSet(file.entries, StrKey("error"))
    && LooseEq(Get(file.entries, StrKey("error")), Int(UploadErrIniSize))
  }

  /** An integer error code is too big exactly when it is
      UPLOAD_ERR_INI_SIZE; the string "1" counts too, a missing error code,
      a non-array value and the code of a successful upload do not. */
  lemma TooBigCases(file: Entries, code: int)
    requires Get(file, StrKey("error")) == Int(code)
    ensures TooBig(Arr(file)) <==> code == UploadErrIniSize
    ensures TooBig(Arr([(StrKey("error"), Str("1"))]))
    ensures !TooBig(Arr([(StrKey("error"), Int(0))]))
    ensures !TooBig(Arr([(StrKey("name"), Str("a.jpg"))]))
    ensures !TooBig(Str("a.jpg"))
  {
    assert "1"[..0] == "";
  }

  /** Jelly_Field_File::_check_filesize. `errors` are the errors already
      recorded, keyed by field, `data` the validated array and
      `uploadMaxFilesize` the ini setting. */
  function CheckFilesize(errors: map<string, ValidationError>, data: Entries, field: string, uploadMaxFilesize: string)
    : (r: map<string, ValidationError>)
    ensures var file := Get(data, StrKey(field));
      && (TooBig(file) ==>
            (&& field in r
             && r[field] == ValidationError("file_too_big", [(StrKey("param1"), Str(uploadMaxFilesize))])
             && r.Keys == errors.Keys + {field}
             && forall k :: k in errors && k != field ==> r[k] == errors[k]))
      && (!TooBig(file) ==> r == errors)
  {
    if TooBig(Get(data, StrKey(field))) then
      errors[field := ValidationError("file_too_big", [(StrKey("param1"), Str(uploadMaxFilesize))])]
    else errors
  }
}

=== FILE: image_field.dfy ===
/** The older image field (Jelly_Field_Image): on top of the file field it
    checks the thumbnail directories, defaults the upload type rule, and on
    save deletes the previous image and its thumbnails and makes each
    thumbnail from the upload with a fixed resize recipe.
 */
module ImageField {
  import opened Outcome
  import opened PhpString
  import opened Php
  import opened Plan
  import FileField

  // ---------------------------------------------------------------------
  // Resize recipes
  // ---------------------------------------------------------------------

  const ResizeTypeCrop: string := "RESIZE_TYPE_CROP"
  const ResizeTypeFit: string := "RESIZE_TYPE_FIT"
  const ResizeTypeExactFit: string := "RESIZE_TYPE_EXACT_FIT"
  const ResizeTypeNone: string := "RESIZE_TYPE_NONE"

  /** The image types allowed when the field sets no `Upload::type` rule. */
  const ImageTypes: Value := Arr(List([Arr(List([Str("jpg"), Str("gif"), Str("png"), Str("jpeg")]))]))

  /** The operations the `switch` on `resize_type` applies; the switch
      compares loosely, and a type matching no case (the NONE type among
      them) leaves the image as it is. */
  function ResizeOps(t: Entries): (ops: seq<Op>)
    ensures |ops| <= 2
    ensures forall i :: 0 <= i < |ops| ==>
      !ops[i].Call? && ops[i].width == Get(t, StrKey("dest_w")) && ops[i].height == Get(t, StrKey("dest_h"))
    ensures |ops| == 2 ==> ops[0].ResizeInverse? && ops[1].Crop?
  {
    var rt := Get(t, StrKey("resize_type"));
    var w := Get(t, StrKey("dest_w"));
    var h := Get(t, StrKey("dest_h"));
    if LooseEq(rt, Str(ResizeTypeCrop)) then [Crop(w, h)]
    else if LooseEq(rt, Str(ResizeTypeFit)) then [Resize(w, h)]
    else if LooseEq(rt, Str(ResizeTypeExactFit)) then [ResizeInverse(w, h), Crop(w, h)]
    else []
  }

  /** RESIZE_TYPE_CROP crops to the destination size. */
  lemma CropRecipe(t: Entries)
    requires Get(t, StrKey("resize_type")) == Str(ResizeTypeCrop)
    ensures ResizeOps(t) == [Crop(Get(t, StrKey("dest_w")), Get(t, StrKey("dest_h")))]
  {
  }

  /** RESIZE_TYPE_FIT resizes to fit within the destination size. */
  lemma FitRecipe(t: Entries)
    requires Get(t, StrKey("resize_type")) == Str(ResizeTypeFit)
    ensures ResizeOps(t) == [Resize(Get(t, StrKey("dest_w")), Get(t, StrKey("dest_h")))]
  {
    DistinctTypes(ResizeTypeFit, ResizeTypeCrop);
  }

  /** RESIZE_TYPE_EXACT_FIT resizes to cover the destination size, then
      crops to it. */
  lemma ExactFitRecipe(t: Entries)
    requires Get(t, StrKey("resize_type")) == Str(ResizeTypeExactFit)
    ensures var w := Get(t, StrKey("dest_w"));
      var h := Get(t, StrKey("dest_h"));
      ResizeOps(t) == [ResizeInverse(w, h), Crop(w, h)]
  {
    DistinctTypes(ResizeTypeExactFit, ResizeTypeCrop);
    DistinctTypes(ResizeTypeExactFit, ResizeTypeFit);
  }

  /** RESIZE_TYPE_NONE, and a thumbnail without a resize type, leave the
      image as it is: the thumbnail is a copy. */
  lemma NoRecipe(t: Entries)
    requires Get(t, StrKey("resize_type")) == Str(ResizeTypeNone) || Get(t, StrKey("resize_type")) == Null
    ensures ResizeOps(t) == []
  {
    if Get(t, StrKey("resize_type")) != Null {
      DistinctTypes(ResizeTypeNone, ResizeTypeCrop);
      DistinctTypes(ResizeTypeNone, ResizeTypeFit);
      DistinctTypes(ResizeTypeNone, ResizeTypeExactFit);
    }
  }

  /** A resize type loosely equal to none of the three recipe names, such
      as an unknown name or the integer 0, leaves the image as it is. */
  lemma UnknownTypeNoRecipe(t: Entries)
    requires !LooseEq(Get(t, StrKey("resize_type")), Str(ResizeTypeCrop))
    requires !LooseEq(Get(t, StrKey("resize_type")), Str(ResizeTypeFit))
    requires !LooseEq(Get(t, StrKey("resize_type")), Str(ResizeTypeExactFit))
    ensures ResizeOps(t) == []
  {
  }

  /** The integer 0 matches no recipe name under PHP 8 comparison: the names
      are not numeric, so the integer is compared as the string "0". */
  lemma ZeroTypeNoRecipe(t: Entries)
    requires Get(t, StrKey("resize_type")) == Int(0)
    ensures ResizeOps(t) == []
  {
    NotNumeric(ResizeTypeCrop);
    NotNumeric(ResizeTypeFit);
    NotNumeric(ResizeTypeExactFit);
    UnknownTypeNoRecipe(t);
  }

  /** `true` equals every non-empty name loosely, so the first case of the
      switch, the crop, is taken. */
  lemma TrueTypeSelectsCrop(t: Entries)
    requires Get(t, StrKey("resize_type")) == Bool(true)
    ensures ResizeOps(t) == [Crop(Get(t, StrKey("dest_w")), Get(t, StrKey("dest_h")))]
  {
    assert Truthy(Str(ResizeTypeCrop));
  }

  /** A resize type name starts with a letter and so is not numeric. */
  lemma NotNumeric(name: string)
    requires |name| > 0 && name[0] == 'R'
    ensures !IsNumeric(name)
  {
    assert !IsDigit(name[0]);
  }

  /** Two resize type names that differ after the common `RESIZE_TYPE_`
      are not loosely equal: neither is numeric. */
  lemma DistinctTypes(a: string, b: string)
    requires |a| > 12 && |b| > 12 && a[0] == 'R' && b[0] == 'R' && a[12] != b[12]
    ensures !LooseEq(Str(a), Str(b))
  {
    assert !IsDigit(a[0]) && !IsDigit(b[0]);
    assert a != b;
  }

  // ---------------------------------------------------------------------
  // __construct
  // ---------------------------------------------------------------------

  /** The properties the field's logic reads. */
  datatype ImageField = ImageField(
    file: FileField.FileField,
    retainValueOnEmptySave: bool,
    thumbnails: seq<Entries>,
    rules: Entries)

  /** The path check of every thumbnail, in order. */
  function ThumbnailPathChecks(ts: seq<Entries>, env: FileField.Env): (cs: seq<Result<string>>)
    ensures |cs| == |ts|
    ensures forall i :: 0 <= i < |ts| ==> cs[i] == FileField.CheckPath(Get(ts[i], StrKey("path")), env)
  {
    seq(|ts|, i requires 0 <= i < |ts| => FileField.CheckPath(Get(ts[i], StrKey("path")), env))
  }

  /** The thumbnail loop of the constructor stops at the first thumbnail
      whose path check throws, with that check's error. */
  lemma ThumbnailChecksFirstError(ts: seq<Entries>, env: FileField.Env)
    ensures Collect(ThumbnailPathChecks(ts, env)).Ok? <==> ThumbnailPathsWritable(ts, env)
    ensures var c := Collect(ThumbnailPathChecks(ts, env));
      c.Thrown? ==>
        exists i :: 0 <= i < |ts|
          && (forall j :: 0 <= j < i ==> FileField.CheckPath(Get(ts[j], StrKey("path")), env).Ok?)
          && FileField.CheckPath(Get(ts[i], StrKey("path")), env).Thrown?
          && c == Thrown(FileField.CheckPath(Get(ts[i], StrKey("path")), env).error)
  {
    var cs := ThumbnailPathChecks(ts, env);
    var c := Collect(cs);
    if c.Thrown? {
      var i :| 0 <= i < |cs| && (forall j :: 0 <= j < i ==> cs[j].Ok?) && cs[i] == Thrown(c.error);
      assert c == Thrown(FileField.CheckPath(Get(ts[i], StrKey("path")), env).error);
    }
  }

  /** Every thumbnail directory passes the path check. */
  predicate ThumbnailPathsWritable(ts: seq<Entries>, env: FileField.Env) {
    forall i :: 0 <= i < |ts| ==> FileField.CheckPath(Get(ts[i], StrKey("path")), env).Ok?
  }

  /** `$rules['Upload::type']` gets the image types unless it is set. */
  function DefaultTypeRule(rules: Entries): (r: Entries)
    ensures IsSet(r, StrKey("Upload::type"))
    ensures IsSet(rules, StrKey("Upload::type")) ==> r == rules
    ensures !IsSet(rules, StrKey("Upload::type")) ==>
      Get(r, StrKey("Upload::type")) == ImageTypes
      && (forall k :: k != StrKey("Upload::type") ==> Lookup(r, k) == Lookup(rules, k))
    ensures UniqueKeys(rules) ==> UniqueKeys(r)
  {
    if IsSet(rules, StrKey("Upload::type")) then rules
    else Put(rules, StrKey("Upload::type"), ImageTypes)
  }

  /** Jelly_Field_Image::__construct: the file field's constructor, then the
      path check on every thumbnail. The checked thumbnail paths are
      assigned to the loop's copy and so are discarded: the thumbnails
      stay as given. */
  function Construct(name: string, path: Value, default: Value, deleteOldFile: bool, retain: bool,
                     thumbnails: seq<Entries>, rules: Entries, env: FileField.Env)
    : (r: Result<ImageField>)
    ensures r.Ok? <==>
      FileField.CheckPath(path, env).Ok? && ThumbnailPathsWritable(thumbnails, env)
    ensures FileField.CheckPath(path, env).Thrown? ==> r == Thrown(FileField.CheckPath(path, env).error)
    ensures FileField.CheckPath(path, env).Ok? && r.Thrown? ==>
      exists i :: 0 <= i < |thumbnails|
        && (forall j :: 0 <= j < i ==> FileField.CheckPath(Get(thumbnails[j], StrKey("path")), env).Ok?)
        && FileField.CheckPath(Get(thumbnails[i], StrKey("path")), env).Thrown?
        && r == Thrown(FileField.CheckPath(Get(thumbnails[i], StrKey("path")), env).error)
    ensures r.Ok? ==>
      && r.value.file.path == FileField.CheckPath(path, env).value
      && r.value.thumbnails == thumbnails
      && r.value.rules == DefaultTypeRule(rules)
      && r.value.retainValueOnEmptySave == retain
  {
    match FileField.Construct(name, path, default, deleteOldFile, env)
    case Thrown(e) => Thrown(e)
    case Ok(file) =>
      ThumbnailChecksFirstError(thumbnails, env);
      match Collect(ThumbnailPathChecks(thumbnails, env))
      case Thrown(e) => Thrown(e)
      case Ok(_) => Ok(ImageField(file, retain, thumbnails, DefaultTypeRule(rules)))
  }

  // ---------------------------------------------------------------------
  // save
  // ---------------------------------------------------------------------

  /** `realpath(p)` used as a string: FALSE reads as the empty string. */
  function RealStr(realpath: string -> Option<string>, p: string): string {
    match realpath(p)
    case Some(q) => q
    case None => ""
  }

  /** The previous file name: the default, or the stored value when the
      field retains values and the model is loaded. */
  function OldFilename(f: ImageField, loaded: bool, stored: Value): (r: Value)
    ensures !f.retainValueOnEmptySave || !loaded ==> r == f.file.default
    ensures f.retainValueOnEmptySave && loaded ==> r == stored
  {
    if f.retainValueOnEmptySave && loaded then stored else f.file.default
  }

  /** The saved file name with the resolved directory and separator cut
      out and separators trimmed from both ends. */
  function StoredName(filename: string, dir: string, ds: char): (v: string)
    ensures |v| > 0 ==> v[0] != ds && v[|v| - 1] != ds
  {
    Trim(ReplaceAll(filename, dir + [ds], ""), {ds})
  }

  /** A saved file name that is the resolved directory, a separator and a
      name that neither contains that prefix nor starts or ends with a
      separator gives back exactly the name. */
  lemma StoredNameRoundTrip(dir: string, ds: char, name: string)
    requires forall i {:trigger OccursAt(name, dir + [ds], i)} :: !OccursAt(name, dir + [ds], i)
    requires |name| == 0 || (name[0] != ds && name[|name| - 1] != ds)
    ensures StoredName(dir + [ds] + name, dir, ds) == name
  {
    assert dir + [ds] + name == (dir + [ds]) + name;
    ReplaceAllLeading(dir + [ds], name, "");
    ReplaceAllAbsent(name, dir + [ds], "");
    TrimUnchanged(name, {ds});
  }

  /** `realpath($thumbnail['path']) . DIRECTORY_SEPARATOR` */
  function ThumbnailDir(t: Entries, realpath: string -> Option<string>, ds: char): string {
    RealStr(realpath, ToStr(Get(t, StrKey("path")))) + [ds]
  }

  /** The job that makes one thumbnail: load the source with the default
      driver, apply the recipe, save into the thumbnail directory under the
      stored name. */
  function ThumbnailJob(t: Entries, source: string, value: string, realpath: string -> Option<string>, ds: char)
    : (job: ImageJob)
    ensures job.source == source && job.driver == DefaultDriver && job.quality.None?
    ensures job.ops == ResizeOps(t)
    ensures Written(job) == ThumbnailDir(t, realpath, ds) + value
  {
    ImageJob(source, DefaultDriver, ResizeOps(t), Some(ThumbnailDir(t, realpath, ds) + value), None)
  }

  /** One job per thumbnail, in the order of the thumbnails. */
  function ThumbnailJobs(ts: seq<Entries>, source: string, value: string, realpath: string -> Option<string>, ds: char)
    : (jobs: seq<ImageJob>)
    ensures |jobs| == |ts|
    ensures forall i :: 0 <= i < |ts| ==> jobs[i] == ThumbnailJob(ts[i], source, value, realpath, ds)
    decreases |ts|
  {
    if |ts| == 0 then []
    else
      var rest := ThumbnailJobs(ts[1..], source, value, realpath, ds);
      assert forall i :: 1 <= i < |ts| ==> ts[1..][i - 1] == ts[i];
      [ThumbnailJob(ts[0], source, value, realpath, ds)] + rest
  }

  /** The previous file name in one thumbnail directory. */
  function OldThumbnail(t: Entries, previous: Value, realpath: string -> Option<string>, ds: char): string {
    ThumbnailDir(t, realpath, ds) + ToStr(previous)
  }

  /** The previous file name in each thumbnail directory. */
  function OldThumbnails(ts: seq<Entries>, previous: Value, realpath: string -> Option<string>, ds: char)
    : (r: set<string>)
    ensures forall i :: 0 <= i < |ts| ==> OldThumbnail(ts[i], previous, realpath, ds) in r
    ensures forall x :: x in r ==> exists i :: 0 <= i < |ts| && x == OldThumbnail(ts[i], previous, realpath, ds)
    decreases |ts|
  {
    if |ts| == 0 then {}
    else
      var rest := OldThumbnails(ts[1..], previous, realpath, ds);
      assert forall i :: 1 <= i < |ts| ==> ts[1..][i - 1] == ts[i];
      {OldThumbnail(ts[0], previous, realpath, ds)} + rest
  }

  /** The steps for one thumbnail. */
  function ThumbnailStep(fs: set<string>, doomed: string, changed: bool, job: ImageJob): (here: seq<Step>)
    ensures Guarded(fs, here)
    ensures Jobs(here) == [job]
    ensures !changed ==> NoUnlink(here)
    ensures UnlinksWithin(here, {doomed})
    ensures Run(fs, here) == if changed && doomed in fs then (fs - {doomed}) + {Written(job)} else fs + {Written(job)}
    ensures changed && doomed in fs ==> |here| == 2 && here[0] == Unlink(doomed)
  {
    if changed && doomed in fs then
      var here := [Unlink(doomed), Process(job)];
      assert here[1..] == [Process(job)];
      assert here[1..][1..] == [];
      assert Jobs(here[1..]) == [job];
      assert Run(fs, here) == Run(fs - {doomed}, [Process(job)]);
      assert Run(fs - {doomed}, [Process(job)]) == Run((fs - {doomed}) + {Written(job)}, []);
      assert Guarded(fs - {doomed}, [Process(job)]) by {
        assert Guarded((fs - {doomed}) + {Written(job)}, []);
      }
      here
    else
      var here := [Process(job)];
      assert here[1..] == [];
      here
  }

  /** The thumbnail loop of `save`, from the filesystem `fs`: per thumbnail,
      unlink the previous thumbnail when the file changed and it exists,
      then run the thumbnail's job. */
  function ThumbnailSteps(ts: seq<Entries>, fs: set<string>, changed: bool, previous: Value,
                          source: string, value: string, realpath: string -> Option<string>, ds: char)
    : (steps: seq<Step>)
    ensures Guarded(fs, steps)
    ensures Jobs(steps) == ThumbnailJobs(ts, source, value, realpath, ds)
    ensures !changed ==> NoUnlink(steps)
    ensures UnlinksWithin(steps, OldThumbnails(ts, previous, realpath, ds))
    ensures changed && |ts| > 0 && OldThumbnail(ts[0], previous, realpath, ds) in fs ==>
      |steps| > 0 && steps[0] == Unlink(OldThumbnail(ts[0], previous, realpath, ds))
    decreases |ts|
  {
    if |ts| == 0 then
      assert Guarded(fs, []);
      []
    else
      var doomed := OldThumbnail(ts[0], previous, realpath, ds);
      var job := ThumbnailJob(ts[0], source, value, realpath, ds);
      var here := ThumbnailStep(fs, doomed, changed, job);
      var rest := ThumbnailSteps(ts[1..], Run(fs, here), changed, previous, source, value, realpath, ds);
      RunAppend(fs, here, rest);
      JobsAppend(here, rest);
      UnlinksAppend(here, rest, {doomed}, OldThumbnails(ts[1..], previous, realpath, ds));
      here + rest
  }

  /** The filesystem thumbnail `i` of the loop sees: the one left by the
      steps of the thumbnails before it. */
  function FsBefore(ts: seq<Entries>, fs: set<string>, changed: bool, previous: Value,
                    source: string, value: string, realpath: string -> Option<string>, ds: char, i: nat)
    : set<string>
    requires i <= |ts|
    decreases i
  {
    if i == 0 then fs
    else
      var here := ThumbnailStep(fs, OldThumbnail(ts[0], previous, realpath, ds), changed,
                                ThumbnailJob(ts[0], source, value, realpath, ds));
      FsBefore(ts[1..], Run(fs, here), changed, previous, source, value, realpath, ds, i - 1)
  }

  /** When the value changed, the loop unlinks the previous file of every
      thumbnail whose previous file exists at the moment that thumbnail's
      turn comes. */
  lemma {:induction false} ThumbnailUnlinked(ts: seq<Entries>, fs: set<string>, changed: bool, previous: Value,
                                            source: string, value: string, realpath: string -> Option<string>,
                                            ds: char, i: nat)
    requires i < |ts| && changed
    requires OldThumbnail(ts[i], previous, realpath, ds) in FsBefore(ts, fs, changed, previous, source, value, realpath, ds, i)
    ensures Unlink(OldThumbnail(ts[i], previous, realpath, ds)) in ThumbnailSteps(ts, fs, changed, previous, source, value, realpath, ds)
    decreases i
  {
    var doomed := OldThumbnail(ts[0], previous, realpath, ds);
    var here := ThumbnailStep(fs, doomed, changed, ThumbnailJob(ts[0], source, value, realpath, ds));
    var rest := ThumbnailSteps(ts[1..], Run(fs, here), changed, previous, source, value, realpath, ds);
    assert ThumbnailSteps(ts, fs, changed, previous, source, value, realpath, ds) == here + rest;
    if i > 0 {
      assert ts[1..][i - 1] == ts[i];
      ThumbnailUnlinked(ts[1..], Run(fs, here), changed, previous, source, value, realpath, ds, i - 1);
    }
  }

  /** Jelly_Field_Image::save. `stored` is the value Jelly::select reads back
      for a loaded model, `valid` is Upload::valid($value), `saved` what
      Upload::save returned (FALSE as `None`), `realpath` the runtime's
      realpath, `ds` the directory separator and `fs` the filesystem before
      the upload. */
  function Save(f: ImageField, value: Value, loaded: bool, stored: Value, valid: bool, saved: Option<string>,
                realpath: string -> Option<string>, ds: char, fs: set<string>)
    : (o: SaveOutcome)
    ensures !(value.Arr? && valid && saved.Some?) ==> o == SaveOutcome(OldFilename(f, loaded, stored), [])
    ensures value.Arr? && valid && saved.Some? ==>
      var previous := OldFilename(f, loaded, stored);
      var v := StoredName(saved.value, RealStr(realpath, f.file.path), ds);
      && o.value == Str(v)
      && |o.steps| >= 1 && o.steps[0] == Store(saved.value)
      && Jobs(o.steps) == ThumbnailJobs(f.thumbnails, f.file.path + [ds] + v, v, realpath, ds)
      && (LooseEq(previous, f.file.default) ==> NoUnlink(o.steps))
      && UnlinksWithin(o.steps, {RealStr(realpath, f.file.path) + [ds] + ToStr(previous)}
                                + OldThumbnails(f.thumbnails, previous, realpath, ds))
    ensures value.Arr? && valid && saved.Some? ==>
      var previous := OldFilename(f, loaded, stored);
      var doomed := RealStr(realpath, f.file.path) + [ds] + ToStr(previous);
      (!LooseEq(previous, f.file.default) && doomed in fs + {saved.value} ==>
        |o.steps| >= 2 && o.steps[1] == Unlink(doomed))
    ensures Guarded(fs, o.steps)
  {
    var previous := OldFilename(f, loaded, stored);
    if value.Arr? && valid && saved.Some? then
      var filename := saved.value;
      var dir := RealStr(realpath, f.file.path);
      var v := StoredName(filename, dir, ds);
      var changed := !LooseEq(previous, f.file.default);
      var doomed := dir + [ds] + ToStr(previous);
      var first := FirstSteps(fs, filename, changed, doomed);
      var thumbs := ThumbnailSteps(f.thumbnails, Run(fs, first), changed, previous, f.file.path + [ds] + v, v, realpath, ds);
      RunAppend(fs, first, thumbs);
      JobsAppend(first, thumbs);
      UnlinksAppend(first, thumbs, {doomed}, OldThumbnails(f.thumbnails, previous, realpath, ds));
      SaveOutcome(Str(v), first + thumbs)
    else
      assert Guarded(fs, []);
      SaveOutcome(previous, [])
  }

  /** A successful save runs the thumbnail loop right after the first
      steps: when the value changed, the previous file of every thumbnail
      that still exists at that thumbnail's turn is unlinked. */
  lemma SaveUnlinksOldThumbnail(f: ImageField, value: Value, loaded: bool, stored: Value, filename: string,
                                realpath: string -> Option<string>, ds: char, fs: set<string>, i: nat)
    requires value.Arr? && i < |f.thumbnails|
    requires !LooseEq(OldFilename(f, loaded, stored), f.file.default)
    requires var previous := OldFilename(f, loaded, stored);
      var dir := RealStr(realpath, f.file.path);
      var v := StoredName(filename, dir, ds);
      var first := FirstSteps(fs, filename, true, dir + [ds] + ToStr(previous));
      OldThumbnail(f.thumbnails[i], previous, realpath, ds)
        in FsBefore(f.thumbnails, Run(fs, first), true, previous, f.file.path + [ds] + v, v, realpath, ds, i)
    ensures Unlink(OldThumbnail(f.thumbnails[i], OldFilename(f, loaded, stored), realpath, ds))
      in Save(f, value, loaded, stored, true, Some(filename), realpath, ds, fs).steps
  {
    var previous := OldFilename(f, loaded, stored);
    var dir := RealStr(realpath, f.file.path);
    var v := StoredName(filename, dir, ds);
    var first := FirstSteps(fs, filename, true, dir + [ds] + ToStr(previous));
    var thumbs := ThumbnailSteps(f.thumbnails, Run(fs, first), true, previous, f.file.path + [ds] + v, v, realpath, ds);
    ThumbnailUnlinked(f.thumbnails, Run(fs, first), true, previous, f.file.path + [ds] + v, v, realpath, ds, i);
    assert Save(f, value, loaded, stored, true, Some(filename), realpath, ds, fs).steps == first + thumbs;
  }

  /** Saving removes at most the previous file and the previous
      thumbnails; when the previous value equals the default it removes
      nothing. */
  lemma SaveKeepsOtherFiles(f: ImageField, value: Value, loaded: bool, stored: Value, valid: bool,
                            saved: Option<string>, realpath: string -> Option<string>, ds: char, fs: set<string>)
    ensures var previous := OldFilename(f, loaded, stored);
      var doomed := {RealStr(realpath, f.file.path) + [ds] + ToStr(previous)}
                    + OldThumbnails(f.thumbnails, previous, realpath, ds);
      fs - doomed <= Run(fs, Save(f, value, loaded, stored, valid, saved, realpath, ds, fs).steps)
    ensures LooseEq(OldFilename(f, loaded, stored), f.file.default) ==>
      fs <= Run(fs, Save(f, value, loaded, stored, valid, saved, realpath, ds, fs).steps)
  {
    var previous := OldFilename(f, loaded, stored);
    var doomed := {RealStr(realpath, f.file.path) + [ds] + ToStr(previous)}
                  + OldThumbnails(f.thumbnails, previous, realpath, ds);
    var o := Save(f, value, loaded, stored, valid, saved, realpath, ds, fs);
    RunKeepsOthers(fs, o.steps, doomed);
    if LooseEq(previous, f.file.default) {
      RunKeepsOthers(fs, o.steps, {});
    }
  }

  /** Without `retain_value_on_empty_save` the previous file name is the
      default, so the file has never "changed": a save deletes neither the
      previous image nor its thumbnails. */
  lemma WithoutRetainNothingDeleted(f: ImageField, value: Value, loaded: bool, stored: Value, valid: bool,
                                    saved: Option<string>, realpath: string -> Option<string>, ds: char, fs: set<string>)
    requires !f.retainValueOnEmptySave
    ensures NoUnlink(Save(f, value, loaded, stored, valid, saved, realpath, ds, fs).steps)
    ensures fs <= Run(fs, Save(f, value, loaded, stored, valid, saved, realpath, ds, fs).steps)
  {
    LooseEqReflexive(f.file.default);
    SaveKeepsOtherFiles(f, value, loaded, stored, valid, saved, realpath, ds, fs);
  }

  /** Store the upload, then unlink the previous file when the value changed
      and the file exists. */
  function FirstSteps(fs: set<string>, filename: string, changed: bool, doomed: string): (first: seq<Step>)
    ensures 1 <= |first| <= 2 && first[0] == Store(filename)
    ensures |first| == 2 <==> changed && doomed in fs + {filename}
    ensures |first| == 2 ==> first[1] == Unlink(doomed)
    ensures Guarded(fs, first)
    ensures Jobs(first) == []
    ensures !changed ==> NoUnlink(first)
    ensures UnlinksWithin(first, {doomed})
  {
    if changed && doomed in fs + {filename} then
      var first := [Store(filename), Unlink(doomed)];
      GuardedStoreUnlink(fs, filename, doomed);
      assert first[1..] == [Unlink(doomed)];
      assert first[1..][1..] == [];
      first
    else
      var first := [Store(filename)];
      GuardedStore(fs, filename);
      assert first[1..] == [];
      first
  }
}

=== FILE: outcome.dfy ===
/** Failure-carrying results shared by the field models.

    A PHP `FALSE` return from a runtime call (realpath, Upload::save) is a
    `None`; a thrown `Kohana_Exception` or a PHP 8 `TypeError` is a `Thrown`.
 */
module Outcome {

  datatype Option<+T> = None | Some(value: T)

  /** The exceptions the fields raise, one per distinct message in the source. */
  datatype Error =
    | UnwritablePath             // `path` does not resolve to a writable directory
    | ThumbnailNeedsPathOrPrefix // a thumbnail with neither a prefix nor a path of its own
    | UnsupportedOperand         // `+=` applied to a thumbnail that is not an array
    | ArgumentsNotArray          // call_user_func_array given arguments that are not an array
    | StringExpected             // strtolower or realpath given an array

  datatype Result<+T> = Ok(value: T) | Thrown(error: Error)

  /** Runs steps in order and stops at the first that throws: the values
      of all steps when none throws, else the first error. */
  function Collect<T>(rs: seq<Result<T>>): (r: Result<seq<T>>)
    ensures r.Ok? <==> forall i :: 0 <= i < |rs| ==> rs[i].Ok?
    ensures r.Ok? ==> |r.value| == |rs| && forall i :: 0 <= i < |rs| ==> r.value[i] == rs[i].value
    ensures r.Thrown? ==>
      exists i :: 0 <= i < |rs| && (forall j :: 0 <= j < i ==> rs[j].Ok?) && rs[i] == Thrown(r.error)
    decreases |rs|
  {
    if |rs| == 0 then Ok([])
    else if rs[0].Thrown? then Thrown(rs[0].error)
    else
      var rest := Collect(rs[1..]);
      assert forall j :: 1 <= j < |rs| ==> rs[1..][j - 1] == rs[j];
      if rest.Thrown? then Thrown(rest.error) else Ok([rs[0].value] + rest.value)
  }
}

=== FILE: php.dfy ===
/** PHP values as the fields see them: scalars, ordered arrays, truthiness,
    string conversion, the loose comparisons `==` and `<`, and the two array
    operations the fields use (`$a + $b` and `$a[$k] = $v`).
 */
module Php {
  import opened Outcome
  import opened PhpString

  datatype Key = IntKey(n: int) | StrKey(s: string)

  /** A PHP value. Arrays are ordered: iteration follows `entries`. */
  datatype Value =
    | Null
    | Bool(b: bool)
    | Int(i: int)
    | Str(s: string)
    | Arr(entries: seq<(Key, Value)>)

  type Entries = seq<(Key, Value)>

  /** A list literal `array(v0, v1, ...)`. */
  function List(vs: seq<Value>): (r: Entries)
    ensures |r| == |vs|
    ensures forall i :: 0 <= i < |vs| ==> r[i] == (IntKey(i), vs[i])
  {
    seq(|vs|, i requires 0 <= i < |vs| => (IntKey(i), vs[i]))
  }

  // ---------------------------------------------------------------------
  // Conversions
  // ---------------------------------------------------------------------

  /** Conversion to bool, as `if ($v)`, `!$v` and `empty($v)` use it. */
  predicate Truthy(v: Value) {
    match v
    case Null => false
    case Bool(b) => b
    case Int(i) => i != 0
    case Str(s) => s != "" && s != "0"
    case Arr(es) => |es| > 0
  }

  /** Conversion to string, as concatenation with `.` uses it. */
  function ToStr(v: Value): string {
    match v
    case Null => ""
    case Bool(b) => if b then "1" else ""
    case Int(i) => IntToString(i)
    case Str(s) => s
    case Arr(_) => "Array"
  }

  // ---------------------------------------------------------------------
  // Comparisons (the rules of PHP 8)
  // ---------------------------------------------------------------------

  /** `a == b`. A bool or null operand compares as bool, null against a
      string compares as the empty string, numeric strings compare by value,
      and an array equals nothing but an array. */
  predicate LooseEq(a: Value, b: Value) {
    match (a, b)
    case (Bool(x), _) => x == Truthy(b)
    case (_, Bool(y)) => Truthy(a) == y
    case (Null, Null) => true
    case (Null, Str(t)) => t == ""
    case (Str(s), Null) => s == ""
    case (Null, _) => !Truthy(b)
    case (_, Null) => !Truthy(a)
    case (Int(x), Int(y)) => x == y
    case (Int(x), Str(t)) => IsNumeric(t) && NumericValue(t) == x
    case (Str(s), Int(y)) => IsNumeric(s) && NumericValue(s) == y
    case (Str(s), Str(t)) =>
      if IsNumeric(s) && IsNumeric(t) then NumericValue(s) == NumericValue(t) else s == t
    case (Arr(x), Arr(y)) => x == y
    case _ => false
  }

  /** `v < n` for an integer `n`. Null and bool compare as bool, a
      non-numeric string against the decimal text of `n`, and an array is
      greater than any integer. */
  predicate LessThanInt(v: Value, n: int) {
    match v
    case Null => n != 0
    case Bool(b) => !b && n != 0
    case Int(i) => i < n
    case Str(s) => if IsNumeric(s) then NumericValue(s) < n else LexLess(s, IntToString(n))
    case Arr(_) => false
  }

  lemma LooseEqReflexive(v: Value)
    ensures LooseEq(v, v)
  {
  }

  /** Loose equality does not depend on the order of its operands. */
  lemma LooseEqSymmetric(a: Value, b: Value)
    ensures LooseEq(a, b) == LooseEq(b, a)
  {
  }

  /** The PHP 8 cases the fields meet when they compare a stored file name
      with its default or a quality with 100. */
  lemma LooseEqCases()
    ensures LooseEq(Null, Str(""))
    ensures !LooseEq(Null, Str("a.jpg"))
    ensures !LooseEq(Int(0), Str("a.jpg"))
    ensures LooseEq(Int(100), Str("100"))
    ensures LooseEq(Str("0100"), Str("100"))
    ensures LooseEq(Bool(true), Str("a.jpg"))
    ensures !LooseEq(Str("0"), Null)
  {
    assert !IsDigit('a');
    assert "a.jpg"[..4] == "a.jp";
    assert "100"[..2] == "10" && "10"[..1] == "1" && "1"[..0] == "";
    assert "0100"[..3] == "010" && "010"[..2] == "01" && "01"[..1] == "0" && "0"[..0] == "";
  }

  /** `v < n` and `v == n` never hold together. */
  lemma LessThanIntExcludesEqual(v: Value, n: int)
    requires LessThanInt(v, n)
    ensures !LooseEq(v, Int(n))
  {
  }

  // ---------------------------------------------------------------------
  // Arrays
  // ---------------------------------------------------------------------

  function Keys(es: Entries): set<Key>
    decreases |es|
  {
    if |es| == 0 then {} else {es[0].0} + Keys(es[1..])
  }

  /** PHP arrays never hold a key twice. */
  predicate UniqueKeys(es: Entries)
    decreases |es|
  {
    |es| == 0 || (es[0].0 !in Keys(es[1..]) && UniqueKeys(es[1..]))
  }

  /** The value stored under `k`, if any. */
  function Lookup(es: Entries, k: Key): (r: Option<Value>)
    ensures r.Some? <==> k in Keys(es)
    ensures r.Some? ==> (k, r.value) in es
    decreases |es|
  {
    if |es| == 0 then None
    else if es[0].0 == k then Some(es[0].1)
    else Lookup(es[1..], k)
  }

  /** `$a[$k]`: a missing key reads as NULL. */
  function Get(es: Entries, k: Key): Value {
    match Lookup(es, k)
    case Some(v) => v
    case None => Null
  }

  /** `isset($a[$k])`: the key is present and not NULL. */
  predicate IsSet(es: Entries, k: Key) {
    Get(es, k) != Null
  }

  /** `$a[$k] = $v`: an existing key keeps its place, a new key goes last. */
  function Put(es: Entries, k: Key, v: Value): (r: Entries)
    ensures Keys(r) == Keys(es) + {k}
    ensures Lookup(r, k) == Some(v)
    ensures forall k' :: k' != k ==> Lookup(r, k') == Lookup(es, k')
    ensures k in Keys(es) ==> |r| == |es| && forall i :: 0 <= i < |es| ==> r[i].0 == es[i].0
    ensures k !in Keys(es) ==> r == es + [(k, v)]
    ensures UniqueKeys(es) ==> UniqueKeys(r)
    decreases |es|
  {
    if |es| == 0 then [(k, v)]
    else if es[0].0 == k then [(k, v)] + es[1..]
    else
      var tail := Put(es[1..], k, v);
      assert ([es[0]] + tail)[1..] == tail;
      assert es == [es[0]] + es[1..];
      [es[0]] + tail
  }

  /** The entries of `b` whose key `a` lacks, in `b`'s order. */
  function Missing(a: Entries, b: Entries): (r: Entries)
    ensures Keys(r) == Keys(b) - Keys(a)
    ensures forall k :: k !in Keys(a) ==> Lookup(r, k) == Lookup(b, k)
    ensures UniqueKeys(b) ==> UniqueKeys(r)
    decreases |b|
  {
    if |b| == 0 then []
    else
      var tail := Missing(a, b[1..]);
      if b[0].0 in Keys(a) then tail
      else
        assert ([b[0]] + tail)[1..] == tail;
        [b[0]] + tail
  }

  lemma {:induction false} AppendProperties(a: Entries, m: Entries)
    ensures Keys(a + m) == Keys(a) + Keys(m)
    ensures forall k :: Lookup(a + m, k) == if k in Keys(a) then Lookup(a, k) else Lookup(m, k)
    ensures UniqueKeys(a) && UniqueKeys(m) && Keys(a) !! Keys(m) ==> UniqueKeys(a + m)
    decreases |a|
  {
    if |a| == 0 {
      assert a + m == m;
    } else {
      assert (a + m)[1..] == a[1..] + m;
      AppendProperties(a[1..], m);
    }
  }

  /** `$a + $b`: every key of `a` keeps its value and position; keys only
      `b` has follow, with `b`'s values. */
  function Union(a: Entries, b: Entries): (r: Entries)
    ensures |r| >= |a| && r[..|a|] == a
    ensures Keys(r) == Keys(a) + Keys(b)
    ensures forall k :: Lookup(r, k) == if k in Keys(a) then Lookup(a, k) else Lookup(b, k)
    ensures forall k :: Get(r, k) == if k in Keys(a) then Get(a, k) else Get(b, k)
    ensures UniqueKeys(a) && UniqueKeys(b) ==> UniqueKeys(r)
  {
    var m := Missing(a, b);
    AppendProperties(a, m);
    assert (a + m)[..|a|] == a;
    a + m
  }
}

=== FILE: php_string.dfy ===
/** The PHP string functions the fields call, on strings whose characters
    stand for bytes (PHP strings are byte strings and none of these calls
    is multibyte-aware).
 */
module PhpString {

  // ---------------------------------------------------------------------
  // strtolower
  // ---------------------------------------------------------------------

  predicate IsUpper(c: char) { 'A' <= c <= 'Z' }

  predicate IsLower(c: char) { 'a' <= c <= 'z' }

  /** strtolower on one byte: ASCII upper-case letters become their
      lower-case partner, every other byte is left alone. */
  function LowerChar(c: char): (d: char)
    ensures IsUpper(c) ==> IsLower(d) && d as int - 'a' as int == c as int - 'A' as int
    ensures !IsUpper(c) ==> d == c
  {
    if IsUpper(c) then (c as int - 'A' as int + 'a' as int) as char else c
  }

  /** strtolower */
  function Lower(s: string): (r: string)
    ensures |r| == |s|
    ensures forall i :: 0 <= i < |s| ==> r[i] == LowerChar(s[i])
  {
    seq(|s|, i requires 0 <= i < |s| => LowerChar(s[i]))
  }

  // ---------------------------------------------------------------------
  // trim / ltrim / rtrim with a character list
  // ---------------------------------------------------------------------

  /** The character list argument of trim, read as a set of bytes. */
  function CharSet(list: string): set<char> {
    set c | c in list
  }

  /** ltrim: drops the longest prefix made of characters in `cs`. */
  function TrimLeft(s: string, cs: set<char>): (r: string)
    ensures |r| <= |s| && r == s[|s| - |r|..]
    ensures |r| > 0 ==> r[0] !in cs
    ensures forall i :: 0 <= i < |s| - |r| ==> s[i] in cs
    decreases |s|
  {
    if |s| > 0 && s[0] in cs then TrimLeft(s[1..], cs) else s
  }

  /** rtrim: drops the longest suffix made of characters in `cs`. */
  function TrimRight(s: string, cs: set<char>): (r: string)
    ensures |r| <= |s| && r == s[..|r|]
    ensures |r| > 0 ==> r[|r| - 1] !in cs
    ensures forall i :: |r| <= i < |s| ==> s[i] in cs
    decreases |s|
  {
    if |s| > 0 && s[|s| - 1] in cs then TrimRight(s[..|s| - 1], cs) else s
  }

  /** Where the slice kept by trim starts. */
  function TrimStart(s: string, cs: set<char>): nat {
    |s| - |TrimLeft(s, cs)|
  }

  /** trim: the result is the slice of `s` left once the longest prefix and
      the longest suffix made of characters in `cs` are dropped. */
  function Trim(s: string, cs: set<char>): (r: string)
    ensures TrimStart(s, cs) + |r| <= |s|
    ensures r == s[TrimStart(s, cs)..TrimStart(s, cs) + |r|]
    ensures forall i :: 0 <= i < TrimStart(s, cs) ==> s[i] in cs
    ensures forall i :: TrimStart(s, cs) + |r| <= i < |s| ==> s[i] in cs
    ensures |r| > 0 ==> r[0] !in cs && r[|r| - 1] !in cs
  {
    var l := TrimLeft(s, cs);
    SuffixTrimmed(s, TrimStart(s, cs), TrimRight(l, cs), cs);
    TrimRight(l, cs)
  }

  /** Trimming the right of the suffix `s[k..]` keeps a slice of `s` and drops
      only listed characters after it. */
  lemma SuffixTrimmed(s: string, k: nat, r: string, cs: set<char>)
    requires k <= |s| && r == TrimRight(s[k..], cs)
    ensures k + |r| <= |s| && r == s[k..k + |r|]
    ensures forall i :: k + |r| <= i < |s| ==> s[i] in cs
  {
    var l := s[k..];
    assert forall i :: k + |r| <= i < |s| ==> s[i] == l[i - k];
  }

  /** A string that neither starts nor ends with a listed character is its
      own trim. */
  lemma TrimUnchanged(s: string, cs: set<char>)
    requires |s| == 0 || (s[0] !in cs && s[|s| - 1] !in cs)
    ensures Trim(s, cs) == s
  {
  }

  // ---------------------------------------------------------------------
  // str_replace with one search string
  // ---------------------------------------------------------------------

  /** `pat` occurs in `s` starting at index `i`. */
  predicate OccursAt(s: string, pat: string, i: int) {
    0 <= i && i + |pat| <= |s| && s[i..i + |pat|] == pat
  }

  /** str_replace(pat, rep, s): scans left to right and replaces each
      non-overlapping occurrence of `pat`; an empty search string leaves the
      subject unchanged. */
  function ReplaceAll(s: string, pat: string, rep: string): (r: string)
    ensures |pat| == 0 ==> r == s
    ensures rep == pat ==> r == s
    ensures |rep| <= |pat| ==> |r| <= |s|
    ensures |rep| == |pat| ==> |r| == |s|
    decreases |s|
  {
    if |pat| == 0 || |s| < |pat| then s
    else if s[..|pat|] == pat then rep + ReplaceAll(s[|pat|..], pat, rep)
    else [s[0]] + ReplaceAll(s[1..], pat, rep)
  }

  /** A subject in which the search string does not occur comes back as is. */
  lemma {:induction false} ReplaceAllAbsent(s: string, pat: string, rep: string)
    requires forall i {:trigger OccursAt(s, pat, i)} :: !OccursAt(s, pat, i)
    ensures ReplaceAll(s, pat, rep) == s
    decreases |s|
  {
    if |pat| == 0 || |s| < |pat| {
    } else {
      assert !OccursAt(s, pat, 0);
      assert s[..|pat|] != pat;
      forall i | true
        ensures !OccursAt(s[1..], pat, i)
      {
        if OccursAt(s[1..], pat, i) {
          assert s[1..][i..i + |pat|] == s[i + 1..i + 1 + |pat|];
          assert OccursAt(s, pat, i + 1);
        }
      }
      ReplaceAllAbsent(s[1..], pat, rep);
    }
  }

  /** A leading occurrence is replaced and the scan resumes right after it. */
  lemma ReplaceAllLeading(pat: string, t: string, rep: string)
    requires |pat| > 0
    ensures ReplaceAll(pat + t, pat, rep) == rep + ReplaceAll(t, pat, rep)
  {
    assert (pat + t)[..|pat|] == pat;
    assert (pat + t)[|pat|..] == t;
  }

  /** With a one-character search and replacement, str_replace maps each
      character on its own. */
  lemma {:induction false} ReplaceAllChar(s: string, a: char, b: char)
    ensures |ReplaceAll(s, [a], [b])| == |s|
    ensures forall i :: 0 <= i < |s| ==>
      ReplaceAll(s, [a], [b])[i] == (if s[i] == a then b else s[i])
    decreases |s|
  {
    if |s| > 0 {
      ReplaceAllChar(s[1..], a, b);
      var tail := ReplaceAll(s[1..], [a], [b]);
      if s[..1] == [a] {
        assert ReplaceAll(s, [a], [b]) == [b] + tail;
      } else {
        assert ReplaceAll(s, [a], [b]) == [s[0]] + tail;
      }
    }
  }

  // ---------------------------------------------------------------------
  // Integers as strings
  // ---------------------------------------------------------------------

  predicate IsDigit(c: char) { '0' <= c <= '9' }

  predicate AllDigits(s: string) {
    forall i :: 0 <= i < |s| ==> IsDigit(s[i])
  }

  /** The integer-shaped numeric strings: an optional sign and at least one
      decimal digit. */
  predicate IsNumeric(s: string) {
    (|s| > 0 && AllDigits(s))
    || (|s| > 1 && (s[0] == '-' || s[0] == '+') && AllDigits(s[1..]))
  }

  function DigitsValue(s: string): nat
    requires AllDigits(s)
    decreases |s|
  {
    if |s| == 0 then 0
    else DigitsValue(s[..|s| - 1]) * 10 + (s[|s| - 1] as int - '0' as int)
  }

  /** The number a numeric string stands for. */
  function NumericValue(s: string): int
    requires IsNumeric(s)
  {
    if AllDigits(s) then DigitsValue(s)
    else if s[0] == '-' then -(DigitsValue(s[1..]) as int)
    else DigitsValue(s[1..])
  }

  function DigitChar(d: nat): char
    requires d < 10
  {
    ('0' as int + d) as char
  }

  /** Decimal digits without leading zeros; reading them back gives `n`. */
  function NatToString(n: nat): (r: string)
    ensures |r| > 0 && AllDigits(r) && DigitsValue(r) == n
    ensures |r| > 1 ==> r[0] != '0'
    decreases n
  {
    if n < 10 then [DigitChar(n)]
    else
      var high := NatToString(n / 10);
      var r := high + [DigitChar(n % 10)];
      assert r[..|r| - 1] == high;
      r
  }

  /** The decimal text PHP produces when an integer is used as a string. */
  function IntToString(i: int): (r: string)
    ensures IsNumeric(r) && NumericValue(r) == i
    ensures |r| > 0
  {
    if i < 0 then
      var digits := NatToString(-i);
      assert ("-" + digits)[1..] == digits;
      "-" + digits
    else NatToString(i)
  }

  // ---------------------------------------------------------------------
  // Byte-wise comparison (strcmp < 0)
  // ---------------------------------------------------------------------

  predicate LexLess(a: string, b: string)
    decreases |a|
  {
    if |a| == 0 then |b| > 0
    else if |b| == 0 then false
    else if a[0] != b[0] then a[0] < b[0]
    else LexLess(a[1..], b[1..])
  }
}

=== FILE: plan.dfy ===
/** What a field's save asks of the outside world, recorded rather than
    performed: files stored by the upload helper, files unlinked, and image
    jobs for the image library (load a source, apply operations in order,
    save once). The filesystem is the set of paths that exist.
 */
module Plan {
  import opened Outcome
  import opened Php

  /** The driver handed to Image::factory. */
  datatype Driver = DefaultDriver | Named(name: Value)

  /** One call on the loaded image. */
  datatype Op =
    | Call(name: string, args: Value)            // call_user_func_array(array($image, name), args)
    | Crop(width: Value, height: Value)          // $image->crop(w, h)
    | Resize(width: Value, height: Value)        // $image->resize(w, h)
    | ResizeInverse(width: Value, height: Value) // $image->resize(w, h, Image::INVERSE)

  /** Image::factory(source, driver), the operations, then one save.
      A `None` destination overwrites the source; a `None` quality leaves
      the argument out. */
  datatype ImageJob = ImageJob(
    source: string,
    driver: Driver,
    ops: seq<Op>,
    destination: Option<string>,
    quality: Option<Value>)

  /** The file the job's save writes. */
  function Written(job: ImageJob): string {
    match job.destination
    case Some(d) => d
    case None => job.source
  }

  datatype Step =
    | Store(path: string)     // Upload::save moved the upload to `path`
    | Unlink(path: string)    // unlink(path)
    | Process(job: ImageJob)  // an image job

  function Apply(fs: set<string>, step: Step): set<string> {
    match step
    case Store(p) => fs + {p}
    case Unlink(p) => fs - {p}
    case Process(job) => fs + {Written(job)}
  }

  /** The filesystem after the steps, in order. */
  function Run(fs: set<string>, steps: seq<Step>): set<string>
    decreases |steps|
  {
    if |steps| == 0 then fs else Run(Apply(fs, steps[0]), steps[1..])
  }

  /** Every unlink targets a file that exists when it runs: the steps
      respect the `file_exists` guards. */
  predicate Guarded(fs: set<string>, steps: seq<Step>)
    decreases |steps|
  {
    |steps| == 0
    || ((steps[0].Unlink? ==> steps[0].path in fs) && Guarded(Apply(fs, steps[0]), steps[1..]))
  }

  lemma {:induction false} RunAppend(fs: set<string>, a: seq<Step>, b: seq<Step>)
    ensures Run(fs, a + b) == Run(Run(fs, a), b)
    ensures Guarded(fs, a + b) <==> Guarded(fs, a) && Guarded(Run(fs, a), b)
    decreases |a|
  {
    if |a| == 0 {
      assert a + b == b;
    } else {
      assert (a + b)[0] == a[0];
      assert (a + b)[1..] == a[1..] + b;
      RunAppend(Apply(fs, a[0]), a[1..], b);
    }
  }

  lemma GuardedStore(fs: set<string>, p: string)
    ensures Guarded(fs, [Store(p)])
  {
    assert [Store(p)][1..] == [];
  }

  lemma GuardedStoreUnlink(fs: set<string>, p: string, q: string)
    requires q in fs + {p}
    ensures Guarded(fs, [Store(p), Unlink(q)])
  {
    var steps := [Store(p), Unlink(q)];
    assert steps[1..] == [Unlink(q)];
    assert steps[1..][1..] == [];
  }

  /** The image jobs among the steps, in order. */
  function Jobs(steps: seq<Step>): (jobs: seq<ImageJob>)
    ensures |jobs| <= |steps|
    decreases |steps|
  {
    if |steps| == 0 then []
    else (if steps[0].Process? then [steps[0].job] else []) + Jobs(steps[1..])
  }

  /** No step unlinks anything. */
  predicate NoUnlink(steps: seq<Step>) {
    forall i :: 0 <= i < |steps| ==> !steps[i].Unlink?
  }

  /** Every unlink targets one of `targets`. */
  predicate UnlinksWithin(steps: seq<Step>, targets: set<string>) {
    forall i :: 0 <= i < |steps| && steps[i].Unlink? ==> steps[i].path in targets
  }

  lemma {:induction false} JobsAppend(a: seq<Step>, b: seq<Step>)
    ensures Jobs(a + b) == Jobs(a) + Jobs(b)
    decreases |a|
  {
    if |a| == 0 {
      assert a + b == b;
    } else {
      assert (a + b)[0] == a[0];
      assert (a + b)[1..] == a[1..] + b;
      JobsAppend(a[1..], b);
    }
  }

  lemma UnlinksAppend(a: seq<Step>, b: seq<Step>, ta: set<string>, tb: set<string>)
    ensures NoUnlink(a) && NoUnlink(b) ==> NoUnlink(a + b)
    ensures UnlinksWithin(a, ta) && UnlinksWithin(b, tb) ==> UnlinksWithin(a + b, ta + tb)
  {
    assert forall i :: |a| <= i < |a + b| ==> (a + b)[i] == b[i - |a|];
  }

  /** Unlinks only remove their targets: every other file that existed is
      still there after the steps. */
  lemma {:induction false} RunKeepsOthers(fs: set<string>, steps: seq<Step>, targets: set<string>)
    requires UnlinksWithin(steps, targets)
    ensures fs - targets <= Run(fs, steps)
    decreases |steps|
  {
    if |steps| > 0 {
      assert steps[0].Unlink? ==> steps[0].path in targets;
      assert forall i :: 1 <= i < |steps| ==> steps[1..][i - 1] == steps[i];
      RunKeepsOthers(Apply(fs, steps[0]), steps[1..], targets);
    }
  }

  /** The value a field's save returns and the steps it takes. */
  datatype SaveOutcome = SaveOutcome(value: Value, steps: seq<Step>)
}

=== FILE: slug.dfy ===
/** The slug field (Jelly_Core_Field_Slug::set): a value is lower-cased,
    every byte outside `[a-z0-9-]` becomes the separator, runs of two or
    more dashes become the separator, and separator characters are trimmed
    from both ends.
 */
module Slug {
  import opened Outcome
  import opened PhpString
  import opened Php

  /** The field's `$separator` unless configured otherwise. */
  const DefaultSeparator: string := "-"

  /** The class `[a-z0-9-]` of the first regular expression. */
  predicate IsSlugChar(c: char) {
    IsLower(c) || IsDigit(c) || c == '-'
  }

  predicate AllSlugChars(s: string) {
    forall i :: 0 <= i < |s| ==> IsSlugChar(s[i])
  }

  /** No two adjacent dashes. */
  predicate NoDoubleDash(s: string) {
    forall i :: 0 <= i < |s| - 1 ==> !(s[i] == '-' && s[i + 1] == '-')
  }

  /** A separator that keeps the output inside the slug alphabet and adds
      no double dash; the default `-` is one. */
  predicate ValidSeparator(sep: string) {
    AllSlugChars(sep) && NoDoubleDash(sep)
  }

  // ---------------------------------------------------------------------
  // The three rewriting steps
  // ---------------------------------------------------------------------

  /** preg_replace('/[^a-z0-9-]/', sep, s): every byte outside the slug
      alphabet is replaced by the whole separator. */
  function ReplaceInvalid(s: string, sep: string): (r: string)
    ensures AllSlugChars(sep) ==> AllSlugChars(r)
    ensures |sep| <= 1 ==> |r| <= |s|
    ensures |sep| == 1 ==>
      (|r| == |s| && forall i :: 0 <= i < |s| ==> r[i] == (if IsSlugChar(s[i]) then s[i] else sep[0]))
    ensures AllSlugChars(s) ==> r == s
    decreases |s|
  {
    if |s| == 0 then ""
    else
      var head := if IsSlugChar(s[0]) then [s[0]] else sep;
      var tail := ReplaceInvalid(s[1..], sep);
      assert |sep| == 1 ==> forall i :: 1 <= i < |s| ==> (head + tail)[i] == tail[i - 1];
      head + tail
  }

  /** The replacement works byte by byte: the result for two consecutive
      parts is the two results joined, for every separator. */
  lemma {:induction false} ReplaceInvalidAppend(a: string, b: string, sep: string)
    ensures ReplaceInvalid(a + b, sep) == ReplaceInvalid(a, sep) + ReplaceInvalid(b, sep)
    decreases |a|
  {
    if |a| == 0 {
      assert a + b == b;
    } else {
      assert (a + b)[0] == a[0];
      assert (a + b)[1..] == a[1..] + b;
      ReplaceInvalidAppend(a[1..], b, sep);
    }
  }

  /** A byte of `[a-z0-9-]` is kept; any other byte becomes the whole
      separator, whatever its length. */
  lemma ReplaceInvalidByte(c: char, sep: string)
    ensures ReplaceInvalid([c], sep) == if IsSlugChar(c) then [c] else sep
  {
    assert [c][1..] == [];
  }

  /** The number of dashes `s` starts with. */
  function DashRun(s: string): (n: nat)
    ensures n <= |s|
    ensures forall i :: 0 <= i < n ==> s[i] == '-'
    ensures n < |s| ==> s[n] != '-'
    decreases |s|
  {
    if |s| > 0 && s[0] == '-' then 1 + DashRun(s[1..]) else 0
  }

  lemma NoDoubleDashJoin(a: string, b: string)
    requires NoDoubleDash(a) && NoDoubleDash(b)
    requires |a| == 0 || |b| == 0 || a[|a| - 1] != '-' || b[0] != '-'
    ensures NoDoubleDash(a + b)
  {
    var ab := a + b;
    forall i | 0 <= i < |ab| - 1
      ensures !(ab[i] == '-' && ab[i + 1] == '-')
    {
      if i + 1 < |a| {
        assert ab[i] == a[i] && ab[i + 1] == a[i + 1];
      } else if i >= |a| {
        assert ab[i] == b[i - |a|] && ab[i + 1] == b[i - |a| + 1];
      }
    }
  }

  /** preg_replace('/-{2,}/', sep, s): scanning left to right, each maximal
      run of two or more dashes becomes the separator and a lone dash is
      kept. The result never has a double dash unless the separator has
      one. */
  function CollapseDashes(s: string, sep: string): (r: string)
    ensures |sep| <= 2 ==> |r| <= |s|
    ensures forall i :: 0 <= i < |r| ==> r[i] in s || r[i] in sep
    ensures |s| > 0 && s[0] != '-' ==> |r| > 0 && r[0] == s[0]
    ensures NoDoubleDash(sep) ==> NoDoubleDash(r)
    decreases |s|
  {
    if |s| == 0 then ""
    else if s[0] == '-' then
      var n := DashRun(s);
      var head := if n >= 2 then sep else "-";
      var tail := CollapseDashes(s[n..], sep);
      assert forall i :: 0 <= i < |tail| ==> tail[i] in s || tail[i] in sep;
      assert NoDoubleDash(sep) ==> NoDoubleDash(head + tail) by {
        if NoDoubleDash(sep) {
          NoDoubleDashJoin(head, tail);
        }
      }
      assert forall i :: 0 <= i < |head + tail| ==>
        (head + tail)[i] in s || (head + tail)[i] in sep by {
        forall i | 0 <= i < |head + tail|
          ensures (head + tail)[i] in s || (head + tail)[i] in sep
        {
          if i < |head| {
            if n < 2 { assert (head + tail)[i] == s[0]; }
          } else {
            assert (head + tail)[i] == tail[i - |head|];
          }
        }
      }
      head + tail
    else
      var tail := CollapseDashes(s[1..], sep);
      assert NoDoubleDash(sep) ==> NoDoubleDash([s[0]] + tail) by {
        if NoDoubleDash(sep) {
          NoDoubleDashJoin([s[0]], tail);
        }
      }
      assert forall i :: 0 <= i < |[s[0]] + tail| ==>
        ([s[0]] + tail)[i] in s || ([s[0]] + tail)[i] in sep by {
        forall i | 0 <= i < |[s[0]] + tail|
          ensures ([s[0]] + tail)[i] in s || ([s[0]] + tail)[i] in sep
        {
          if i > 0 { assert ([s[0]] + tail)[i] == tail[i - 1]; }
        }
      }
      [s[0]] + tail
  }

  /** `n` dashes. */
  function Dashes(n: nat): (d: string)
    ensures |d| == n && forall i :: 0 <= i < n ==> d[i] == '-'
  {
    seq(n, _ => '-')
  }

  lemma {:induction false} DashRunOf(n: nat, t: string)
    requires |t| == 0 || t[0] != '-'
    ensures DashRun(Dashes(n) + t) == n
    decreases n
  {
    if n == 0 {
      assert Dashes(0) + t == t;
    } else {
      assert (Dashes(n) + t)[1..] == Dashes(n - 1) + t;
      DashRunOf(n - 1, t);
    }
  }

  /** A maximal run of `n` dashes becomes the separator when `n` is at
      least two and stays a single dash otherwise; the scan resumes right
      after the run. This holds for every separator. */
  lemma CollapseRun(n: nat, t: string, sep: string)
    requires n >= 1 && (|t| == 0 || t[0] != '-')
    ensures CollapseDashes(Dashes(n) + t, sep) == (if n >= 2 then sep else "-") + CollapseDashes(t, sep)
  {
    DashRunOf(n, t);
    assert (Dashes(n) + t)[n..] == t;
  }

  /** A byte other than a dash is kept and the scan moves on. */
  lemma CollapseNonDash(c: char, t: string, sep: string)
    requires c != '-'
    ensures CollapseDashes([c] + t, sep) == [c] + CollapseDashes(t, sep)
  {
    assert ([c] + t)[1..] == t;
  }

  /** The slug a non-returning `set` stores. */
  function Normalize(value: string, sep: string): (r: string)
    ensures |r| > 0 ==> r[0] !in sep && r[|r| - 1] !in sep
  {
    Trim(CollapseDashes(ReplaceInvalid(Lower(value), sep), sep), CharSet(sep))
  }

  /** Jelly_Core_Field_Slug::set. `default` stands for the inherited
      `_default`, which yields the value to carry on with and whether to
      return it as is. */
  function Set(value: Value, sep: string, default: Value -> (Value, bool)): (r: Result<Value>)
    ensures default(value).1 ==> r == Ok(default(value).0)
    ensures !default(value).1 ==> (r.Thrown? <==> default(value).0.Arr?)
    ensures r.Thrown? ==> r.error == StringExpected
    ensures !default(value).1 && !default(value).0.Arr? ==>
      r == Ok(Str(Normalize(ToStr(default(value).0), sep)))
    ensures !default(value).1 && r.Ok? ==> r.value.Str?
    ensures !default(value).1 && r.Ok? && |r.value.s| > 0 ==>
      r.value.s[0] !in sep && r.value.s[|r.value.s| - 1] !in sep
    ensures !default(value).1 && r.Ok? && ValidSeparator(sep) ==>
      AllSlugChars(r.value.s) && NoDoubleDash(r.value.s) && Normalize(r.value.s, sep) == r.value.s
  {
    var (v, ret) := default(value);
    if ret then Ok(v)
    else if v.Arr? then Thrown(StringExpected)
    else
      NormalizedShape(ToStr(v), sep);
      Ok(Str(Normalize(ToStr(v), sep)))
  }

  /** Scalars other than strings are normalised through their string form:
      null becomes the empty slug. */
  lemma SetNullIsEmpty(sep: string)
    ensures Set(Null, sep, v => (v, false)) == Ok(Str(""))
  {
    assert Normalize("", sep) == "";
  }

  /** Every natural number becomes its decimal digits, for a separator
      without letters or digits such as the default. */
  lemma SetNatIsDigits(n: nat, sep: string)
    requires forall i :: 0 <= i < |sep| ==> !IsLower(sep[i]) && !IsDigit(sep[i])
    ensures Set(Int(n), sep, v => (v, false)) == Ok(Str(IntToString(n)))
  {
    var s := NatToString(n);
    NatString(n);
    DigitsKept(s, sep);
  }

  /** The string form of a natural number is its digits. */
  lemma NatString(n: nat)
    ensures ToStr(Int(n)) == IntToString(n) == NatToString(n)
  {
  }

  /** A negative integer loses its sign under the default separator: the
      minus sign is a slug byte, so the replacement keeps it, and the trim
      then drops it as a separator byte. */
  lemma SetNegativeLosesSign(n: nat)
    requires n > 0
    ensures Set(Int(-(n as int)), DefaultSeparator, v => (v, false)) == Ok(Str(NatToString(n)))
  {
    var d := NatToString(n);
    assert ToStr(Int(-(n as int))) == "-" + d;
    SignDropped(d);
  }

  /** A minus sign followed by digits normalises to the digits. */
  lemma SignDropped(d: string)
    requires |d| > 0 && AllDigits(d)
    ensures Normalize("-" + d, "-") == d
  {
    var s := "-" + d;
    assert forall i :: 0 <= i < |s| ==> s[i] == '-' || IsDigit(s[i]);
    assert Lower(s) == s;
    assert ReplaceInvalid(s, "-") == s by {
      assert AllSlugChars(s);
    }
    assert NoDoubleDash(s);
    CollapseFixed(s, "-");
    SignTrimmed(d);
  }

  /** Trimming dashes from a minus sign followed by digits leaves the
      digits. */
  lemma SignTrimmed(d: string)
    requires |d| > 0 && AllDigits(d)
    ensures Trim("-" + d, CharSet("-")) == d
  {
    var cs := CharSet("-");
    assert cs == {'-'};
    assert ("-" + d)[1..] == d;
    assert TrimLeft(d, cs) == d;
    assert TrimLeft("-" + d, cs) == d;
    assert TrimRight(d, cs) == d;
  }

  /** `true` becomes the slug "1", under the same condition. */
  lemma SetTrueIsOne(sep: string)
    requires forall i :: 0 <= i < |sep| ==> !IsLower(sep[i]) && !IsDigit(sep[i])
    ensures Set(Bool(true), sep, v => (v, false)) == Ok(Str("1"))
  {
    assert ToStr(Bool(true)) == "1";
    DigitsKept("1", sep);
  }

  /** A string of digits is its own slug when the separator holds no
      letter or digit. */
  lemma DigitsKept(s: string, sep: string)
    requires AllDigits(s)
    requires forall i :: 0 <= i < |sep| ==> !IsLower(sep[i]) && !IsDigit(sep[i])
    ensures Normalize(s, sep) == s
  {
    AlphanumericLowered(s, sep);
    assert Lower(s) == s;
  }

  lemma NormalizedShape(v: string, sep: string)
    ensures var r := Normalize(v, sep);
      ValidSeparator(sep) ==> AllSlugChars(r) && NoDoubleDash(r) && Normalize(r, sep) == r
  {
    if ValidSeparator(sep) {
      OutputGrammar(v, sep);
      Idempotent(v, sep);
    }
  }

  // ---------------------------------------------------------------------
  // Properties of the normalisation
  // ---------------------------------------------------------------------

  lemma SliceKeepsGrammar(s: string, i: int, j: int)
    requires 0 <= i <= j <= |s|
    ensures AllSlugChars(s) ==> AllSlugChars(s[i..j])
    ensures NoDoubleDash(s) ==> NoDoubleDash(s[i..j])
  {
    var t := s[i..j];
    assert forall k :: 0 <= k < |t| ==> t[k] == s[i + k];
  }

  /** With a separator made of slug characters, every output byte is in
      `[a-z0-9-]`; with one that has no double dash, the output has none. */
  lemma {:induction false} OutputGrammar(value: string, sep: string)
    ensures AllSlugChars(sep) ==> AllSlugChars(Normalize(value, sep))
    ensures NoDoubleDash(sep) ==> NoDoubleDash(Normalize(value, sep))
  {
    var replaced := ReplaceInvalid(Lower(value), sep);
    var collapsed := CollapseDashes(replaced, sep);
    if AllSlugChars(sep) {
      CollapseKeepsSlugChars(replaced, sep);
    }
    TrimKeepsGrammar(collapsed, CharSet(sep));
  }

  lemma TrimKeepsGrammar(s: string, cs: set<char>)
    ensures AllSlugChars(s) ==> AllSlugChars(Trim(s, cs))
    ensures NoDoubleDash(s) ==> NoDoubleDash(Trim(s, cs))
  {
    var k := TrimStart(s, cs);
    var r := Trim(s, cs);
    var j := k + |r|;
    assert r == s[k..j];
    SliceKeepsGrammar(s, k, j);
  }

  lemma CollapseKeepsSlugChars(s: string, sep: string)
    requires AllSlugChars(s) && AllSlugChars(sep)
    ensures AllSlugChars(CollapseDashes(s, sep))
  {
    var c := CollapseDashes(s, sep);
    forall i | 0 <= i < |c| ensures IsSlugChar(c[i]) {
      if c[i] in s {
        var j :| 0 <= j < |s| && s[j] == c[i];
      } else {
        var j :| 0 <= j < |sep| && sep[j] == c[i];
      }
    }
  }

  /** Collapsing leaves a string with no double dash alone: each of its
      dash runs is a lone dash. */
  lemma {:induction false} CollapseFixed(s: string, sep: string)
    requires NoDoubleDash(s)
    ensures CollapseDashes(s, sep) == s
    decreases |s|
  {
    if |s| > 0 {
      SliceKeepsGrammar(s, 1, |s|);
      CollapseFixed(s[1..], sep);
      if s[0] == '-' {
        assert |s| > 1 ==> s[1] != '-';
        assert DashRun(s) == 1;
      }
    }
  }

  /** Slug characters have no upper-case letter, so strtolower keeps them. */
  lemma LowerFixed(s: string)
    requires AllSlugChars(s)
    ensures Lower(s) == s
  {
  }

  /** With a valid separator (the default `-` among them) normalising a slug
      changes nothing: `set(set(x)) == set(x)` on the non-returning path. */
  lemma {:induction false} Idempotent(value: string, sep: string)
    requires ValidSeparator(sep)
    ensures Normalize(Normalize(value, sep), sep) == Normalize(value, sep)
  {
    var y := Normalize(value, sep);
    OutputGrammar(value, sep);
    LowerFixed(y);
    assert ReplaceInvalid(Lower(y), sep) == y;
    CollapseFixed(y, sep);
    TrimUnchanged(y, CharSet(sep));
  }

  lemma DefaultSeparatorValid()
    ensures ValidSeparator(DefaultSeparator)
  {
  }

  /** With a separator of at most one byte the slug is never longer than
      the input. */
  lemma {:induction false} LengthBound(value: string, sep: string)
    requires |sep| <= 1
    ensures |Normalize(value, sep)| <= |value|
  {
    var replaced := ReplaceInvalid(Lower(value), sep);
    assert |replaced| <= |value|;
    assert |CollapseDashes(replaced, sep)| <= |replaced|;
  }

  /** A value made only of ASCII letters and digits comes out lower-cased
      and otherwise intact, as long as the separator holds no lower-case
      letter or digit (which trim would otherwise strip): upper-case letters
      are lowered, never replaced. */
  lemma {:induction false} AlphanumericLowered(value: string, sep: string)
    requires forall i :: 0 <= i < |value| ==> IsUpper(value[i]) || IsLower(value[i]) || IsDigit(value[i])
    requires forall i :: 0 <= i < |sep| ==> !IsLower(sep[i]) && !IsDigit(sep[i])
    ensures Normalize(value, sep) == Lower(value)
  {
    var l := Lower(value);
    assert forall i :: 0 <= i < |l| ==> IsLower(l[i]) || IsDigit(l[i]);
    assert AllSlugChars(l);
    assert ReplaceInvalid(l, sep) == l;
    assert NoDoubleDash(l);
    CollapseFixed(l, sep);
    if |l| > 0 {
      assert l[0] !in CharSet(sep) && l[|l| - 1] !in CharSet(sep);
    }
    TrimUnchanged(l, CharSet(sep));
  }

  // ---------------------------------------------------------------------
  // An independent reading of the collapse step for the default separator
  // ---------------------------------------------------------------------

  /** Drops every dash that directly follows another dash. */
  function DropRepeatedDashes(s: string): string
    decreases |s|
  {
    if |s| < 2 then s
    else if s[0] == '-' && s[1] == '-' then DropRepeatedDashes(s[1..])
    else [s[0]] + DropRepeatedDashes(s[1..])
  }

  lemma {:induction false} DropRun(s: string, n: nat)
    requires 1 <= n <= |s|
    requires forall i :: 0 <= i < n ==> s[i] == '-'
    requires n < |s| ==> s[n] != '-'
    ensures DropRepeatedDashes(s) == "-" + DropRepeatedDashes(s[n..])
    decreases n
  {
    if n == 1 {
      if |s| >= 2 {
        assert DropRepeatedDashes(s) == [s[0]] + DropRepeatedDashes(s[1..]);
      }
    } else {
      assert s[1..][n - 1..] == s[n..];
      DropRun(s[1..], n - 1);
    }
  }

  /** With the default separator, the collapse step is exactly "drop every
      dash that follows a dash". */
  lemma {:induction false} CollapseDropsRepeatedDashes(s: string)
    ensures CollapseDashes(s, DefaultSeparator) == DropRepeatedDashes(s)
    decreases |s|
  {
    if |s| > 0 {
      if s[0] == '-' {
        var n := DashRun(s);
        DropRun(s, n);
        CollapseDropsRepeatedDashes(s[n..]);
      } else {
        CollapseDropsRepeatedDashes(s[1..]);
        if |s| >= 2 {
          assert DropRepeatedDashes(s) == [s[0]] + DropRepeatedDashes(s[1..]);
        }
      }
    }
  }

  // ---------------------------------------------------------------------
  // Behaviour the class comment does not describe
  // ---------------------------------------------------------------------

  /** Underscores and forward slashes are replaced like any other byte
      outside `[a-z0-9-]`, although the class comment lists them as valid. */
  lemma UnderscoreAndSlashReplaced()
    ensures Normalize("a_b/c", DefaultSeparator) == "a-b-c"
  {
    var r := "a-b-c";
    LowerExample();
    ReplaceExample();
    assert r[0] == 'a' && r[1] == '-' && r[2] == 'b' && r[3] == '-' && r[4] == 'c';
    assert NoDoubleDash(r);
    NormalizeSteps("a_b/c", "-", r);
  }

  /** A value whose replaced form has no double dash and does not start or
      end with the separator normalises to that form. */
  lemma NormalizeSteps(value: string, sep: string, replaced: string)
    requires ReplaceInvalid(Lower(value), sep) == replaced
    requires NoDoubleDash(replaced)
    requires |replaced| == 0 || (replaced[0] !in sep && replaced[|replaced| - 1] !in sep)
    ensures Normalize(value, sep) == replaced
  {
    CollapseFixed(replaced, sep);
    TrimUnchanged(replaced, CharSet(sep));
  }

  lemma LowerExample()
    ensures Lower("a_b/c") == "a_b/c"
  {
    var l := Lower("a_b/c");
    assert l[0] == 'a' && l[1] == '_' && l[2] == 'b' && l[3] == '/' && l[4] == 'c';
  }

  lemma ReplaceExample()
    ensures ReplaceInvalid("a_b/c", "-") == "a-b-c"
  {
    var r := ReplaceInvalid("a_b/c", "-");
    assert r[0] == 'a' && r[1] == '-' && r[2] == 'b' && r[3] == '-' && r[4] == 'c';
  }
}
